=== FILE: README.md ===
# local-serve, modelled in Dafny

local-serve is a small HTTP file server. Its core is in `src/main.rs`:

- `generate_directory_listing` renders an HTML page for a directory.
- `handle_dir` answers the root route with the listing of the served directory.
- `handle_path` answers every other path. It joins the captured path onto the served directory. It answers 404 when the result does not exist and 403 when it does not start with the served directory. Otherwise it lists a directory, or returns a file's contents as a download.

The model states these operations as pure functions over an abstract filesystem. It then proves what a reply says about the request and the tree.

Modules, one per file:

- `Wrappers` (`wrappers.dfy`): `Option`.
- `Sequences` (`sequences.dfy`): `IsPrefix`, which defines `Path::starts_with`, the page reader's prefix test and containment of locations.
- `Paths` (`paths.dfy`): Unix path strings as `std::path` reads them.
  - `Split` cuts a path at its separators.
  - `Parse` gives the components, as `Path::components` does.
  - `JoinStr` is `PathBuf::join`/`push`.
  - `Join` is the same join on components, and `ParseJoin` ties the two together.
  - `StartsWith`, `HasParent` and `FileName` are `Path::starts_with`, `Path::parent().is_some()` and `Path::file_name`.
- `FileSystem` (`filesystem.dfy`): the tree is a map from locations (names from the filesystem root) to nodes. There is also a working directory.
  - Path strings resolve segment by segment, as the kernel resolves them for `stat`. Each step needs a directory, and `..` moves to the parent.
  - `Exists`, `IsDir`, `ReadFile` and `ReadDir` are `Path::exists`, `Path::is_dir`, `fs::read` and `fs::read_dir`.
  - A directory carries the outcome of enumerating it. A file carries its contents or a read failure.
- `Entries` and `Sorting` (`entries.dfy`, `sorting.dfy`): the `sort_by` comparator, its ordering laws, and a sort that meets it. The sorted permutation is unique, so any correct sort gives the same page.
- `Listing` (`listing.dfy`): the listing page, and a parser that reads a rendered page back.
- `Handler` (`handler.dfy`): replies, headers, `handle_dir` and `handle_path`.
- `Containment` (`containment.dfy`): the traversal finding below, with a corrected handler.

## Model

| member | source | states |
|---|---|---|
| Paths.Parse | src/main.rs:107 | A path string is absolute exactly when its first component is the root |
| Paths.ParseWellFormed | src/main.rs:107 | Parsed components put the root only first and `.` only first, and every name is non-empty and slash-free |
| Paths.SplitUnsplit | src/main.rs:101 | Segments without separators, split after being joined with `/`, come back unchanged |
| Paths.UnsplitSplit | src/main.rs:101 | Joining the segments of a path string with `/` gives the string back |
| Paths.SplitAppend | src/main.rs:101 | Splitting `x/y` gives the segments of `x` followed by those of `y` |
| Paths.Join | src/main.rs:101 | An absolute path replaces the base; a relative one keeps the base as a prefix |
| Paths.ParseJoin | src/main.rs:101 | Joining strings and then parsing equals parsing both strings and joining the components |
| Paths.SplitJoin | src/main.rs:101 | A relative path joined onto a base has the base's segments, less a trailing empty one, followed by its own; the join is absolute exactly when the base is |
| Paths.JoinAbsolute | src/main.rs:101 | Joining an absolute path gives that path, dropping the served directory |
| Paths.JoinRelativeStartsWith | src/main.rs:101-109 | Any relative path joined onto the base starts with the base, `..` segments included |
| Paths.JoinNameFileName | src/main.rs:119-122 | The file name of a directory joined with a valid name is that name |
| FileSystem.Locate | src/main.rs:103-105 | Whatever a path resolves to is a node of the tree, and the empty path resolves to nothing |
| FileSystem.ReadFile | src/main.rs:114-117 | A read succeeds only on an existing file and yields its contents; an existing file's outcome is its recorded one |
| FileSystem.ReadDir | src/main.rs:54 | An enumeration succeeds only on a directory and yields its recorded entries |
| FileSystem.WalkAppend | src/main.rs:103 | Resolving two segment lists in turn equals resolving their concatenation |
| FileSystem.WalkDescends | src/main.rs:101-109 | Resolution without `..` segments only descends from where it starts |
| FileSystem.WalkToFile | src/main.rs:119-122 | In a well-formed tree, a walk that ends on a file ends with a name segment, which is the file's own name |
| FileSystem.FileNameOfFile | src/main.rs:119-122 | For a path naming a file, `file_name` is the file's own name in the tree |
| FileSystem.WalkJoined | src/main.rs:101-105 | Resolving the base and resolving a relative path joined onto it share the walk through the base's segments |
| FileSystem.LocateChild | src/main.rs:58 | A directory's path joined with a child's name resolves to that child, or to nothing when it is absent |
| FileSystem.LocateJoinDescends | src/main.rs:101-109 | A relative request without `..` resolves at or below the served directory |
| Entries.CompareNamesEqual | src/main.rs:63 | Name comparison is `Equal` exactly for equal names |
| Entries.CompareNamesReverse | src/main.rs:63 | Swapping two names reverses their comparison |
| Entries.NameLeTransitive | src/main.rs:63 | Name order is transitive |
| Entries.CompareEqual | src/main.rs:57-65 | The comparator is `Equal` only for identical entries |
| Entries.CompareReverse | src/main.rs:57-65 | Swapping two entries reverses the comparator's answer |
| Entries.LeTotal | src/main.rs:57-65 | Any two entries are ordered one way or the other |
| Entries.LeAntisymmetric | src/main.rs:57-65 | Entries ordered both ways are identical |
| Entries.LeTransitive | src/main.rs:57-65 | The comparator's order is transitive |
| Entries.SortedMeans | src/main.rs:56-65 | Sorted by the comparator means directories before files and names ascending within each kind |
| Sorting.Insert | src/main.rs:57-65 | Inserting into a sorted list keeps it sorted and adds exactly the one entry |
| Sorting.SortEntries | src/main.rs:57-65 | The result is sorted by the comparator and is a permutation of the input |
| Sorting.HeadIsLeast | src/main.rs:57-65 | The first entry of a sorted list is ordered before every other |
| Sorting.SortedUnique | src/main.rs:57-65 | Two sorted permutations of the same entries are equal |
| Sorting.SortIgnoresArrivalOrder | src/main.rs:54-65 | Entries read in any order sort to the same list |
| Listing.Successful | src/main.rs:55 | Exactly the successfully read entries are kept, each as often as it was read |
| Listing.Listed | src/main.rs:54-65 | Listed entries are sorted, hold each readable entry as often as it was read, and are empty when enumeration fails |
| Listing.FailedEnumerationIsEmpty | src/main.rs:54 | A failed enumeration lists nothing |
| Listing.Render | src/main.rs:28-82 | The page starts with the preamble and ends with the footer; it shows the `../` link exactly when the path has a parent |
| Listing.ParseItem | src/main.rs:74-78 | Reading one item back consumes exactly the text of that item; the link target is cut at the first `/`, which no name holds |
| Listing.ParseItemOf | src/main.rs:74-78 | A rendered item, followed by anything, reads back as its entry, for any name without `/`, quotes included |
| Listing.QuotedNameReadsBack | src/main.rs:74-78 | Names are not escaped, yet an item whose name holds double quotes reads back as its entry |
| Listing.ParseItemsOf | src/main.rs:67-79 | Rendered items read back as the entries, in order, for any names without `/` |
| Listing.LinkDecides | src/main.rs:47-50 | The page holds the parent link exactly when it was asked to show it |
| Listing.RenderRoundTrip | src/main.rs:47-82 | A rendered page reads back as its parent-link flag and its entries, for any names without `/` |
| Listing.PageRoundTrip | src/main.rs:28-91 | A listing page reads back as the flag and the sorted readable entries, for any names without `/` |
| Listing.ListedIsSortedPermutation | src/main.rs:54-65 | Two enumerations holding the same entries in different orders list the same sorted entries |
| Handler.HeaderValue | src/main.rs:84-88 | A header value is found exactly when a header of that name exists, and it is that header's value |
| Handler.Enumerate | src/main.rs:54-59 | The enumeration matches `read_dir` entry for entry; each kept name is marked a directory exactly when the tree holds a directory at that child of the listed directory |
| Handler.ListingReply | src/main.rs:28-91 | A listing is always 200 HTML with no disposition header; it shows `../` exactly when the path has a parent and ends with the footer |
| Handler.HandleDir | src/main.rs:93-95 | The root route is 200 HTML, with `../` exactly when the served directory has a parent |
| Handler.RelativeRootShowsParentLink | src/main.rs:47-50 | Any relative served directory, `.` included, shows the `../` link on the root route |
| Handler.FilesystemRootHasNoParentLink | src/main.rs:47-50 | Serving `/` gives a root listing without the `../` link |
| Handler.NoParentLinkExactly | src/main.rs:47-50 | The root listing lacks the `../` link exactly when the served directory has no components or only the root |
| Handler.DispositionRoundTrip | src/main.rs:127-132 | The download name reads back out of the `Content-Disposition` value |
| Handler.DispositionValid | src/main.rs:127-132 | The `Content-Disposition` value is a valid header value exactly when the name is |
| Handler.FileReply | src/main.rs:119-134 | A file reply is never an error; it succeeds exactly when both header values are valid, and then carries the contents, the guessed or fallback type, and the file name or `download` |
| Handler.Serve | src/main.rs:111-135 | A directory gets its listing; a file gets 500 exactly when its read fails, and otherwise the file reply for its contents, headers included |
| Handler.HandlePath | src/main.rs:97-136 | 404 exactly when the joined path does not exist; 403 exactly when it exists and does not lexically start with the base; otherwise the target is served: a directory gets its listing, an unreadable file 500, a readable file the file reply for its contents |
| Handler.MissingBeforeForbidden | src/main.rs:103-109 | A missing path is 404 even when it would also fail containment |
| Handler.RelativeNeverForbidden | src/main.rs:101-109 | A relative request is never answered 403 |
| Handler.ForbiddenOnlyWhenAbsolute | src/main.rs:101-109 | 403 only for an existing absolute request that does not start with the base |
| Handler.DirectoryIsListed | src/main.rs:107-112 | A request that passes the containment test and names a directory, relative or absolute, gets that directory's listing |
| Handler.RelativeDirectoryIsListed | src/main.rs:101-112 | A relative request naming a directory always gets that directory's listing |
| Handler.ContainedFileReply | src/main.rs:107-135 | A contained readable file at any depth gets its contents, the guessed type or octet-stream, and an attachment under its last component |
| Handler.UnreadableFileFails | src/main.rs:107-117 | A contained file that cannot be read gets 500 "Failed to read file" |
| Handler.FileOfferedUnderItsName | src/main.rs:114-134 | A served file's body is its contents, and its download name is its own name in the tree |
| Handler.DownloadRoundTrip | src/main.rs:97-136 | Requesting a readable file by name in the served directory, when its name and type are valid header values, returns its contents, its type and its name |
| Handler.ListedNamesAreFileNames | src/main.rs:67-72 | Every enumerated name is shown under its own name, so `unknown` never appears |
| Handler.ListingShows | src/main.rs:28-91 | For every directory, a listing read back gives the parent flag, directories first, names in order, and each readable entry as often as it was read |
| Containment.HandlePathConfined | src/main.rs:101-109 | Corrected handler: 404 exactly when missing; 403 exactly when the target does not resolve at or below the served directory |
| Containment.ConfinedServesOnlyInside | src/main.rs:107-109 | Whatever the corrected handler serves lies at or below the served directory |
| Containment.ConfinedAgreesWithoutParentSegments | src/main.rs:101-109 | For relative requests without `..` onto a non-empty served directory, the corrected handler answers exactly as `HandlePath` |
| Containment.TraversalEscapesRoot | src/main.rs:101-109 | Serving `.`, the request `../n` returns any readable file `n` beside the working directory, whose name and type are valid header values, although it lies outside the served directory |
| Containment.ConfinedRefusesTraversal | src/main.rs:107-108 | The corrected handler answers that same request with 403 |

Notes on the code's behaviour:

- The `../` link (src/main.rs:47-50) depends on `path.parent().is_some()`, so it also appears on the served directory's own page, for the default `.` included. It is absent exactly when the path has no components or only the root (`/`, `//`, `/.`). `HandleDir`, `RelativeRootShowsParentLink`, `FilesystemRootHasNoParentLink` and `NoParentLinkExactly` state this.
- The 403 branch at src/main.rs:107-109 exists to refuse paths outside the served directory, but `starts_with` compares components lexically and does not resolve `..`. See Findings.

## Left out

- Command-line parsing, logging, the TCP listener and the axum router (`main`, lines 138-172) are left out. Each route is a function of the tree, the served directory and the captured path.
- Symbolic links, permissions and file metadata are not modelled. A failed read or enumeration is a recorded outcome in the tree.
- `mime_guess::from_path` is a parameter `guess` of the file functions. It returns the guessed type or nothing, and nothing falls back to `application/octet-stream`.
- Handler.FileReply: `String::from_utf8(...).unwrap()` is not modelled. A file's contents are text already, so non-UTF-8 contents, which make the code panic, have no counterpart.
- Handler.FileReply: a header value that `HeaderValue::from_str` rejects makes the code panic. The model answers `Aborted` instead.
- Listing.Render: names that `to_str` cannot convert (the `unknown` fallback) cannot occur, because names are strings. `ListedNamesAreFileNames` shows the fallback is otherwise unreachable.
- Listing.Render: the page's CSS block is abbreviated in the preamble constant. Its content plays no part in any property.
- Containment.HandlePathConfined: an empty served directory resolves to nothing, so the corrected handler refuses every existing target there with 403, where `HandlePath` serves relative requests. `ConfinedAgreesWithoutParentSegments` therefore requires a non-empty served directory.
- Sorting.SortEntries: insertion sort stands in for the standard library's stable merge sort. `SortedUnique` shows every correct sort gives the same list under this comparator.
- Trailing separators in the request are resolved as `stat` resolves them, but `Path::components` ignores them. No property depends on that difference.
- Concurrency and the async runtime are not modelled.

## Findings

| source | as written | input that shows it | evidently intended | confidence | as-written member | corrected member |
|---|---|---|---|---|---|---|
| src/main.rs:101-109 | `full_path.starts_with(&*base_path)` compares components lexically, so `..` segments in a relative request pass the check | served directory `.` with working directory `/srv` and a readable file `/secret`; request `../secret` gets 200 with the contents of `/secret` | a target outside the served directory is refused with 403 | high; not executed | Containment.TraversalEscapesRoot | Containment.HandlePathConfined |

=== FILE: containment.dfy ===
/**
 * Containment of the wildcard route. The route joins the captured path
 * onto the served directory and compares the two lexically, component by
 * component, without resolving `..`. A relative captured path therefore
 * always passes the check even when its `..` segments climb out of the
 * served directory, and the file they reach is served.
 *
 * `TraversalEscapesRoot` exhibits that: from the working directory, `../n`
 * reaches any file beside it;
 * `HandlePathConfined` is the handler with the containment test made on
 * resolved locations, which serves nothing outside the served directory
 * (`ConfinedServesOnlyInside`) and answers exactly as `HandlePath` does for
 * every relative request without `..` (`ConfinedAgreesWithoutParentSegments`).
 */
module Containment {
  import opened Wrappers
  import opened Sequences
  import opened Paths
  import opened FileSystem
  import opened Handler

  /** Location `inner` lies at or below location `outer`. */
  predicate Below(inner: Location, outer: Location)
  {
    IsPrefix(outer, inner)
  }

  /** Both paths resolve and the first lies at or below the second. */
  predicate ResolvesWithin(fs: Fs, full: string, base: string)
  {
    Locate(fs, full).Some? && Locate(fs, base).Some? && Below(Locate(fs, full).value, Locate(fs, base).value)
  }

  /** The wildcard route with containment tested on resolved locations. */
  function HandlePathConfined(fs: Fs, base: string, request: string, guess: string -> Option<string>): (r: Reply)
    ensures r == Err(NotFound, "File not found") <==> !Exists(fs, JoinStr(base, request))
    ensures r == Err(Forbidden, "Access denied") <==>
      Exists(fs, JoinStr(base, request)) && !ResolvesWithin(fs, JoinStr(base, request), base)
  {
    var full := JoinStr(base, request);
    if !Exists(fs, full) then Err(NotFound, "File not found")
    else if !ResolvesWithin(fs, full, base) then Err(Forbidden, "Access denied")
    else Serve(fs, full, guess)
  }

  /**
   * Whatever the confined handler answers with 200, a listing or a file,
   * lies at or below the served directory, whatever `..` segments or
   * absolute paths the request holds.
   */
  lemma ConfinedServesOnlyInside(fs: Fs, base: string, request: string, guess: string -> Option<string>)
    requires HandlePathConfined(fs, base, request, guess).Ok?
    ensures Locate(fs, base).Some?
    ensures Locate(fs, JoinStr(base, request)).Some?
    ensures Below(Locate(fs, JoinStr(base, request)).value, Locate(fs, base).value)
  {
  }

  /**
   * For a relative request without `..` segments the confined handler
   * gives the same answer as `HandlePath`.
   */
  lemma ConfinedAgreesWithoutParentSegments(fs: Fs, base: string, request: string, guess: string -> Option<string>)
    requires base != "" && !IsAbsolute(request)
    requires forall i :: 0 <= i < |Split(request)| ==> Split(request)[i] != ".."
    ensures HandlePathConfined(fs, base, request, guess) == HandlePath(fs, base, request, guess)
  {
    var full := JoinStr(base, request);
    JoinRelativeStartsWith(base, request);
    if Exists(fs, full) {
      LocateJoinDescends(fs, base, request);
    }
  }

  /** The request `../n`: one level up, then the name `n`. */
  function Climb(n: Name): string
  {
    ".." + [Sep] + n
  }

  /** The segments of `./../n`, the request joined onto `.`. */
  lemma ClimbSegments(n: Name)
    ensures !IsAbsolute(Climb(n))
    ensures Split(JoinStr(".", Climb(n))) == [".", "..", n]
    ensures Split(".") == ["."]
  {
    SplitSingle("..");
    SplitSingle(n);
    SplitAppend("..", n);
    SplitSingle(".");
    SplitJoin(".", Climb(n));
  }

  /**
   * A tree whose working directory is not the filesystem root and holds a
   * readable file `n` beside the working directory.
   */
  predicate SiblingFile(fs: Fs, n: Name, contents: string)
  {
    && WellFormed(fs)
    && |fs.cwd| > 0 && IsDirAt(fs, fs.cwd)
    && Up(fs.cwd) + [n] in fs.nodes
    && fs.nodes[Up(fs.cwd) + [n]] == File(Some(contents))
  }

  /** Where `.` and `./../n` lead in such a tree. */
  lemma ClimbResolves(fs: Fs, n: Name, contents: string)
    requires SiblingFile(fs, n, contents)
    ensures Locate(fs, ".") == Some(fs.cwd)
    ensures Locate(fs, JoinStr(".", Climb(n))) == Some(Up(fs.cwd) + [n])
  {
    var cwd := fs.cwd;
    var up := Up(cwd);
    ClimbSegments(n);
    WalkJoined(fs, ".", Climb(n));
    assert IsDirAt(fs, up);
    assert Step(up, n) == up + [n];
    var last: seq<string> := [n];
    assert last[1..] == [];
    assert Walk(fs, up, last) == Some(up + [n]);
    var two: seq<string> := ["..", n];
    assert two[1..] == last;
    assert Walk(fs, cwd, two) == Some(up + [n]);
    var three: seq<string> := [".", "..", n];
    assert three[1..] == two;
    assert Walk(fs, cwd, three) == Some(up + [n]);
    var one: seq<string> := ["."];
    assert one[1..] == [];
    assert Walk(fs, cwd, one) == Some(cwd);
  }

  /** The sibling is not at or below the working directory. */
  lemma SiblingOutside(fs: Fs, n: Name, contents: string)
    requires SiblingFile(fs, n, contents)
    ensures !Below(Up(fs.cwd) + [n], fs.cwd)
  {
    var cwd := fs.cwd;
    var sibling := Up(cwd) + [n];
    assert sibling != cwd by {
      assert fs.nodes[cwd].Dir? && fs.nodes[sibling].File?;
    }
    assert |sibling| == |cwd|;
    assert sibling[..|cwd|] == sibling;
  }

  /**
   * As written: serving the working directory `.` of any tree that holds a
   * readable file `n` beside it, the request `../n` passes the containment
   * check and returns that file, which lies outside the served directory.
   */
  lemma TraversalEscapesRoot(fs: Fs, n: Name, contents: string, guess: string -> Option<string>)
    requires SiblingFile(fs, n, contents)
    requires ValidHeaderValue(n) && ValidHeaderValue(guess(JoinStr(".", Climb(n))).GetOr(OctetStream))
    ensures HandlePath(fs, ".", Climb(n), guess) ==
      Ok([Header(ContentType, guess(JoinStr(".", Climb(n))).GetOr(OctetStream)), Header(ContentDisposition, Disposition(n))],
         contents)
    ensures Locate(fs, ".") == Some(fs.cwd)
    ensures Locate(fs, JoinStr(".", Climb(n))) == Some(Up(fs.cwd) + [n])
    ensures !Below(Up(fs.cwd) + [n], fs.cwd)
  {
    var full := JoinStr(".", Climb(n));
    ClimbSegments(n);
    ClimbResolves(fs, n, contents);
    SiblingOutside(fs, n, contents);
    JoinRelativeStartsWith(".", Climb(n));
    FileNameOfFile(fs, full);
    DispositionValid(n);
    assert !IsDir(fs, full);
    assert ReadFile(fs, full) == Some(contents);
    assert HandlePath(fs, ".", Climb(n), guess) == Serve(fs, full, guess);
    assert Serve(fs, full, guess) == FileReply(full, contents, guess);
  }

  /** Corrected: the same request is refused with 403. */
  lemma ConfinedRefusesTraversal(fs: Fs, n: Name, contents: string, guess: string -> Option<string>)
    requires SiblingFile(fs, n, contents)
    ensures HandlePathConfined(fs, ".", Climb(n), guess) == Err(Forbidden, "Access denied")
  {
    ClimbResolves(fs, n, contents);
    SiblingOutside(fs, n, contents);
  }
}

=== FILE: entries.dfy ===
/**
 * Directory entries and the order the listing sorts them in: directories
 * before files, and within each kind by name. Names compare as Rust's
 * `OsStr` does on Unix, byte-wise on their UTF-8 encoding, which is the same
 * as comparing code point by code point.
 */
module Entries {

  /** The outcome of a three-way comparison (Rust's `std::cmp::Ordering`). */
  datatype Ordering = Less | Equal | Greater {
    /** The outcome of the same comparison with its arguments swapped. */
    function Reverse(): Ordering
    {
      match this
      case Less => Greater
      case Equal => Equal
      case Greater => Less
    }
  }

  /** One listed child: its name and whether it is a directory. */
  datatype Entry = Entry(name: string, isDir: bool)

  /** Lexicographic comparison of names, character by character. */
  function CompareNames(a: string, b: string): Ordering
    decreases |a|
  {
    if |a| == 0 then (if |b| == 0 then Equal else Less)
    else if |b| == 0 then Greater
    else if a[0] < b[0] then Less
    else if b[0] < a[0] then Greater
    else CompareNames(a[1..], b[1..])
  }

  /** Name order as a relation: `a` comes no later than `b`. */
  predicate NameLe(a: string, b: string)
  {
    CompareNames(a, b) != Greater
  }

  lemma {:induction false} CompareNamesEqual(a: string, b: string)
    ensures CompareNames(a, b) == Equal <==> a == b
    decreases |a|
  {
    if |a| > 0 && |b| > 0 && a[0] == b[0] {
      CompareNamesEqual(a[1..], b[1..]);
      assert a == [a[0]] + a[1..];
      assert b == [b[0]] + b[1..];
    }
  }

  lemma {:induction false} CompareNamesReverse(a: string, b: string)
    ensures CompareNames(b, a) == CompareNames(a, b).Reverse()
    decreases |a|
  {
    if |a| > 0 && |b| > 0 && a[0] == b[0] {
      CompareNamesReverse(a[1..], b[1..]);
    }
  }

  lemma {:induction false} NameLeTransitive(a: string, b: string, c: string)
    requires NameLe(a, b) && NameLe(b, c)
    ensures NameLe(a, c)
    decreases |a|
  {
    if |a| > 0 && |b| > 0 && |c| > 0 && a[0] == b[0] == c[0] {
      NameLeTransitive(a[1..], b[1..], c[1..]);
    }
  }

  /** The comparator the listing hands to `sort_by`. */
  function Compare(a: Entry, b: Entry): Ordering
  {
    match (a.isDir, b.isDir)
    case (true, false) => Less
    case (false, true) => Greater
    case _ => CompareNames(a.name, b.name)
  }

  /** `a` may precede `b` in the sorted listing. */
  predicate Le(a: Entry, b: Entry)
  {
    Compare(a, b) != Greater
  }

  /** The comparator reports `Equal` only for identical entries. */
  lemma CompareEqual(a: Entry, b: Entry)
    ensures Compare(a, b) == Equal <==> a == b
  {
    CompareNamesEqual(a.name, b.name);
  }

  /** Swapping the arguments reverses the comparator's answer. */
  lemma CompareReverse(a: Entry, b: Entry)
    ensures Compare(b, a) == Compare(a, b).Reverse()
  {
    CompareNamesReverse(a.name, b.name);
  }

  lemma LeTotal(a: Entry, b: Entry)
    ensures Le(a, b) || Le(b, a)
  {
    CompareReverse(a, b);
  }

  lemma LeAntisymmetric(a: Entry, b: Entry)
    requires Le(a, b) && Le(b, a)
    ensures a == b
  {
    CompareReverse(a, b);
    CompareEqual(a, b);
  }

  lemma LeTransitive(a: Entry, b: Entry, c: Entry)
    requires Le(a, b) && Le(b, c)
    ensures Le(a, c)
  {
    if a.isDir == b.isDir == c.isDir {
      NameLeTransitive(a.name, b.name, c.name);
    }
  }

  /** Every earlier entry may precede every later one. */
  predicate Sorted(s: seq<Entry>)
  {
    forall i, j :: 0 <= i < j < |s| ==> Le(s[i], s[j])
  }

  /** Directories come before files. */
  predicate DirsFirst(s: seq<Entry>)
  {
    forall i, j :: 0 <= i < j < |s| && s[j].isDir ==> s[i].isDir
  }

  /** Entries of the same kind are in non-decreasing name order. */
  predicate NamesOrderedWithinKind(s: seq<Entry>)
  {
    forall i, j :: 0 <= i < j < |s| && s[i].isDir == s[j].isDir ==> NameLe(s[i].name, s[j].name)
  }

  /**
   * What sortedness under the comparator means: directories first, and by
   * name within each kind.
   */
  lemma SortedMeans(s: seq<Entry>)
    ensures Sorted(s) <==> DirsFirst(s) && NamesOrderedWithinKind(s)
  {
  }
}

=== FILE: filesystem.dfy ===
/**
 * The filesystem the handler queries, abstracted to a map from locations
 * (the names from the filesystem root down to a node) to nodes. Path
 * strings are resolved the way the kernel resolves them for `stat`, `open`
 * and `opendir`: segment by segment from the root or from the process's
 * working directory, where every step needs the current node to be a
 * directory and `..` moves to the parent (and stays put at the root).
 * Symbolic links are not modelled.
 */
module FileSystem {
  import opened Wrappers
  import opened Paths

  /** Where a node lives: the names from the root down to it. */
  type Location = seq<string>

  /**
   * A node. A directory carries what enumerating it yields: `None` when
   * `read_dir` itself fails, otherwise one item per entry, `None` for an
   * entry whose read fails. A file carries its contents, `None` when
   * reading it fails.
   */
  datatype Node =
    | Dir(listing: Option<seq<Option<Name>>>)
    | File(contents: Option<string>)

  /** The filesystem and the process's working directory. */
  datatype Fs = Fs(nodes: map<Location, Node>, cwd: Location)

  predicate IsDirAt(fs: Fs, loc: Location)
  {
    loc in fs.nodes && fs.nodes[loc].Dir?
  }

  /** The location `..` leads to; the root is its own parent. */
  function Up(loc: Location): Location
  {
    if loc == [] then [] else loc[..|loc| - 1]
  }

  /**
   * A real directory tree: the root is a directory and every other node
   * sits in a directory.
   */
  predicate WellFormed(fs: Fs)
  {
    && IsDirAt(fs, [])
    && forall loc :: loc in fs.nodes && loc != [] ==> IsDirAt(fs, Up(loc))
  }

  /** The location one segment leads to from `cur`. */
  function Step(cur: Location, seg: string): Location
  {
    if seg == "" || seg == "." then cur
    else if seg == ".." then Up(cur)
    else cur + [seg]
  }

  /**
   * Follows the segments from `cur`; each step needs the current node to
   * be a directory. The final node is not looked up.
   */
  function Walk(fs: Fs, cur: Location, segs: seq<string>): Option<Location>
    decreases |segs|
  {
    if |segs| == 0 then Some(cur)
    else if !IsDirAt(fs, cur) then None
    else Walk(fs, Step(cur, segs[0]), segs[1..])
  }

  /** Where resolution of a path string starts. */
  function Start(fs: Fs, s: string): Location
  {
    if IsAbsolute(s) then [] else fs.cwd
  }

  /**
   * The node a path string names, if any. The empty string names nothing
   * (`stat("")` fails).
   */
  function Locate(fs: Fs, s: string): (r: Option<Location>)
    ensures r.Some? ==> r.value in fs.nodes
    ensures r.Some? ==> s != ""
  {
    if s == "" then None
    else match Walk(fs, Start(fs, s), Split(s))
      case Some(loc) => if loc in fs.nodes then Some(loc) else None
      case None => None
  }

  /** `Path::exists`. */
  predicate Exists(fs: Fs, s: string)
  {
    Locate(fs, s).Some?
  }

  /** `Path::is_dir`: false when the path cannot be resolved. */
  predicate IsDir(fs: Fs, s: string)
  {
    Locate(fs, s).Some? && fs.nodes[Locate(fs, s).value].Dir?
  }

  /** `fs::read`: the contents of a readable file; fails on anything else. */
  function ReadFile(fs: Fs, s: string): (r: Option<string>)
    ensures r.Some? ==> Exists(fs, s) && fs.nodes[Locate(fs, s).value] == File(r)
    ensures Exists(fs, s) && fs.nodes[Locate(fs, s).value].File? ==> fs.nodes[Locate(fs, s).value] == File(r)
  {
    match Locate(fs, s)
    case Some(loc) => (match fs.nodes[loc] case File(c) => c case Dir(_) => None)
    case None => None
  }

  /** `fs::read_dir`: the enumeration of a directory; fails on anything else. */
  function ReadDir(fs: Fs, s: string): (r: Option<seq<Option<Name>>>)
    ensures r.Some? ==> IsDir(fs, s) && fs.nodes[Locate(fs, s).value] == Dir(r)
    ensures IsDir(fs, s) ==> fs.nodes[Locate(fs, s).value] == Dir(r)
  {
    match Locate(fs, s)
    case Some(loc) => (match fs.nodes[loc] case Dir(l) => l case File(_) => None)
    case None => None
  }

  // ---------------------------------------------------------------------
  // Resolution lemmas
  // ---------------------------------------------------------------------

  /** Walking two segment lists in turn is walking their concatenation. */
  lemma {:induction false} WalkAppend(fs: Fs, cur: Location, xs: seq<string>, ys: seq<string>)
    ensures Walk(fs, cur, xs + ys) ==
      (match Walk(fs, cur, xs) case Some(m) => Walk(fs, m, ys) case None => None)
    decreases |xs|
  {
    if |xs| > 0 {
      assert (xs + ys)[0] == xs[0];
      assert (xs + ys)[1..] == xs[1..] + ys;
      WalkAppend(fs, Step(cur, xs[0]), xs[1..], ys);
    } else {
      assert xs + ys == ys;
    }
  }

  /** Without `..`, resolution only ever descends. */
  lemma {:induction false} WalkDescends(fs: Fs, cur: Location, segs: seq<string>)
    requires forall i :: 0 <= i < |segs| ==> segs[i] != ".."
    requires Walk(fs, cur, segs).Some?
    ensures |cur| <= |Walk(fs, cur, segs).value|
    ensures Walk(fs, cur, segs).value[..|cur|] == cur
    decreases |segs|
  {
    if |segs| > 0 {
      var next := Step(cur, segs[0]);
      WalkDescends(fs, next, segs[1..]);
      var l := Walk(fs, cur, segs).value;
      assert next[..|cur|] == cur;
      assert l[..|next|] == next;
      assert l[..|cur|] == next[..|cur|];
    }
  }

  /** A walk that takes a step first checks the node it stands on is a directory. */
  lemma WalkNonEmpty(fs: Fs, cur: Location, segs: seq<string>)
    requires |segs| > 0 && Walk(fs, cur, segs).Some?
    ensures IsDirAt(fs, cur)
  {
  }

  /**
   * In a well-formed tree, a walk that ends on a file ended with a plain
   * name: its last segment is a name, the file's location ends with it, and
   * the last component of the segments is that name.
   */
  lemma {:induction false} WalkToFile(fs: Fs, cur: Location, segs: seq<string>, atStart: bool)
    requires WellFormed(fs)
    requires |segs| > 0
    requires Walk(fs, cur, segs).Some?
    requires Walk(fs, cur, segs).value in fs.nodes
    requires fs.nodes[Walk(fs, cur, segs).value].File?
    ensures var n := segs[|segs| - 1];
      && n != "" && n != "." && n != ".."
      && var loc := Walk(fs, cur, segs).value;
      && |loc| > 0 && loc[|loc| - 1] == n
      && var c := Comps(segs, atStart);
      && |c| > 0 && c[|c| - 1] == Normal(n)
    decreases |segs|
  {
    var x := segs[0];
    var rest := segs[1..];
    assert segs == [x] + rest;
    CompsCons(x, rest, atStart);
    if |rest| == 0 {
      LastStepToFile(fs, cur, x);
    } else {
      var next := Step(cur, x);
      assert Walk(fs, cur, segs) == Walk(fs, next, rest);
      WalkToFile(fs, next, rest, false);
      assert segs[|segs| - 1] == rest[|rest| - 1];
      var head := SegmentComponents(x, atStart);
      var tail := Comps(rest, false);
      assert (head + tail)[|head + tail| - 1] == tail[|tail| - 1];
    }
  }

  /** A single step that lands on a file in a well-formed tree took a plain name. */
  lemma LastStepToFile(fs: Fs, cur: Location, x: string)
    requires WellFormed(fs)
    requires Walk(fs, cur, [x]).Some?
    requires Walk(fs, cur, [x]).value in fs.nodes
    requires fs.nodes[Walk(fs, cur, [x]).value].File?
    ensures x != "" && x != "." && x != ".."
    ensures Walk(fs, cur, [x]) == Some(cur + [x])
  {
    var one: seq<string> := [x];
    assert one[1..] == [];
    assert Walk(fs, cur, one) == Some(Step(cur, x));
  }

  /**
   * The last component of a path string that names a file in a
   * well-formed tree is that file's own name.
   */
  lemma FileNameOfFile(fs: Fs, s: string)
    requires WellFormed(fs)
    requires Locate(fs, s).Some? && fs.nodes[Locate(fs, s).value].File?
    ensures var loc := Locate(fs, s).value;
      |loc| > 0 && FileName(Parse(s)) == Some(loc[|loc| - 1])
  {
    var segs := Split(s);
    WalkToFile(fs, Start(fs, s), segs, true);
    var pre: Path := if IsAbsolute(s) then [RootDir] else [];
    assert Parse(s) == pre + Comps(segs, true);
  }

  /**
   * Resolving a base and resolving a relative path joined onto it share
   * the walk through the base's front segments.
   */
  lemma WalkJoined(fs: Fs, base: string, p: string)
    requires base != "" && !IsAbsolute(p)
    ensures Start(fs, JoinStr(base, p)) == Start(fs, base)
    ensures Walk(fs, Start(fs, base), Split(JoinStr(base, p))) ==
      (match Walk(fs, Start(fs, base), JoinFront(base))
       case Some(m) => Walk(fs, m, Split(p))
       case None => None)
    ensures Walk(fs, Start(fs, base), Split(base)) ==
      (match Walk(fs, Start(fs, base), JoinFront(base))
       case Some(m) => if base[|base| - 1] == Sep then Walk(fs, m, [""]) else Some(m)
       case None => None)
  {
    var start := Start(fs, base);
    var front := JoinFront(base);
    SplitJoin(base, p);
    WalkAppend(fs, start, front, Split(p));
    if base[|base| - 1] == Sep {
      WalkAppend(fs, start, front, [""]);
    } else {
      WalkAppend(fs, start, front, []);
    }
  }

  /** The child `n` of the directory a path names is found by joining `n` onto the path. */
  lemma LocateChild(fs: Fs, dir: string, n: string)
    requires ValidName(n)
    requires Locate(fs, dir).Some? && IsDirAt(fs, Locate(fs, dir).value)
    ensures var child := Locate(fs, dir).value + [n];
      Locate(fs, JoinStr(dir, n)) == if child in fs.nodes then Some(child) else None
  {
    SplitSingle(n);
    assert !IsAbsolute(n) by { assert n[0] != Sep; }
    WalkJoined(fs, dir, n);
    var start := Start(fs, dir);
    var m := Walk(fs, start, JoinFront(dir)).value;
    assert Locate(fs, dir).value == m;
    assert Walk(fs, m, [n]) == Walk(fs, m + [n], []);
  }

  /**
   * A relative path without `..` joined onto a path that resolves names
   * something inside what that path names.
   */
  lemma LocateJoinDescends(fs: Fs, base: string, p: string)
    requires base != "" && !IsAbsolute(p)
    requires forall i :: 0 <= i < |Split(p)| ==> Split(p)[i] != ".."
    requires Exists(fs, JoinStr(base, p))
    ensures Exists(fs, base)
    ensures var b := Locate(fs, base).value;
      var l := Locate(fs, JoinStr(base, p)).value;
      |b| <= |l| && l[..|b|] == b
  {
    WalkJoined(fs, base, p);
    var start := Start(fs, base);
    var sp := Split(p);
    var m := Walk(fs, start, JoinFront(base)).value;
    WalkNonEmpty(fs, m, sp);
    WalkDescends(fs, m, sp);
    if base[|base| - 1] == Sep {
      assert Walk(fs, m, [""]) == Walk(fs, m, []);
    }
    assert Locate(fs, base) == Some(m);
  }
}

=== FILE: handler.dfy ===
/**
 * The request handlers: the root route, which always lists the served
 * directory, and the wildcard route, which joins the captured path onto
 * the served directory and answers, in this order, 404 when the joined
 * path does not exist, 403 when it is not component-prefixed by the served
 * directory, a listing when it is a directory, and otherwise the file's
 * contents (or 500 when reading them fails).
 *
 * The MIME guess is a parameter: it maps the joined path to a type when it
 * recognises the extension.
 */
module Handler {
  import opened Wrappers
  import opened Paths
  import opened FileSystem
  import opened Entries
  import opened Sorting
  import opened Listing

  /** The error statuses the handler answers with. */
  datatype Status = NotFound | Forbidden | InternalServerError {
    function Code(): nat
    {
      match this
      case NotFound => 404
      case Forbidden => 403
      case InternalServerError => 500
    }
  }

  datatype Header = Header(name: string, value: string)

  /**
   * What a handler produces: a 200 response with headers and body, an
   * error status with its message, or a panic (an `unwrap` on a header
   * value that is not a valid header value), after which no response is sent.
   */
  datatype Reply =
    | Ok(headers: seq<Header>, body: string)
    | Err(status: Status, message: string)
    | Aborted

  const ContentType: string := "content-type"
  const ContentDisposition: string := "content-disposition"
  const HtmlUtf8: string := "text/html; charset=utf-8"
  const OctetStream: string := "application/octet-stream"
  const DownloadFallback: string := "download"

  /** `HeaderValue::from_str` accepts tab and every character from space up, except DEL. */
  predicate ValidHeaderValue(v: string)
  {
    forall i :: 0 <= i < |v| ==> v[i] == '\t' || (' ' <= v[i] && v[i] != '\U{7F}')
  }

  /** The value of the first header called `name`, if any. */
  function HeaderValue(headers: seq<Header>, name: string): (r: Option<string>)
    ensures r.Some? <==> exists i :: 0 <= i < |headers| && headers[i].name == name
    ensures r.Some? ==> exists i :: 0 <= i < |headers| && headers[i] == Header(name, r.value)
    decreases |headers|
  {
    if |headers| == 0 then None
    else if headers[0].name == name then Some(headers[0].value)
    else
      var r := HeaderValue(headers[1..], name);
      assert forall i :: 0 < i < |headers| ==> headers[i] == headers[1..][i - 1];
      r
  }

  // ---------------------------------------------------------------------
  // Directory listings
  // ---------------------------------------------------------------------

  /**
   * `is_dir` on a listed directory's path joined with one of its names asks
   * whether the tree holds a directory at that child.
   */
  lemma ChildKinds(fs: Fs, path: string)
    requires ReadDir(fs, path).Some?
    ensures forall i :: 0 <= i < |ReadDir(fs, path).value| && ReadDir(fs, path).value[i].Some? ==>
      (IsDir(fs, JoinStr(path, ReadDir(fs, path).value[i].value)) <==>
       IsDirAt(fs, Locate(fs, path).value + [ReadDir(fs, path).value[i].value]))
  {
    var raw := ReadDir(fs, path).value;
    forall i | 0 <= i < |raw| && raw[i].Some?
      ensures IsDir(fs, JoinStr(path, raw[i].value)) <==> IsDirAt(fs, Locate(fs, path).value + [raw[i].value])
    {
      LocateChild(fs, path, raw[i].value);
    }
  }

  /**
   * What enumerating a directory yields, with each successfully read name
   * paired with whether it is a directory (`is_dir` on the path joined
   * with the name, false when that cannot be resolved).
   */
  function Enumerate(fs: Fs, path: string): (r: Option<seq<Option<Entry>>>)
    ensures r.Some? <==> ReadDir(fs, path).Some?
    ensures r.Some? ==> |r.value| == |ReadDir(fs, path).value|
    ensures r.Some? ==> forall i :: 0 <= i < |r.value| ==>
      (r.value[i].Some? <==> ReadDir(fs, path).value[i].Some?)
    ensures r.Some? ==> forall i :: 0 <= i < |r.value| && r.value[i].Some? ==>
      r.value[i].value.name == ReadDir(fs, path).value[i].value
    ensures r.Some? ==> forall i :: 0 <= i < |r.value| && r.value[i].Some? ==>
      (r.value[i].value.isDir <==> IsDirAt(fs, Locate(fs, path).value + [ReadDir(fs, path).value[i].value]))
  {
    match ReadDir(fs, path)
    case None => None
    case Some(raw) =>
      ChildKinds(fs, path);
      Some(seq(|raw|, i requires 0 <= i < |raw| =>
        match raw[i]
        case Some(n) => Some(Entry(n, IsDir(fs, JoinStr(path, n))))
        case None => None))
  }

  /** `generate_directory_listing`: always a 200 HTML page. */
  function ListingReply(fs: Fs, path: string): (r: Reply)
    ensures r.Ok?
    ensures HeaderValue(r.headers, ContentType) == Some(HtmlUtf8)
    ensures HeaderValue(r.headers, ContentDisposition).None?
    ensures ShowsParentLink(r.body) <==> HasParent(Parse(path))
    ensures HasSuffix(r.body, Footer)
  {
    Ok([Header(ContentType, HtmlUtf8)], Page(HasParent(Parse(path)), Enumerate(fs, path)))
  }

  /** `handle_dir`: the root route lists the served directory. */
  function HandleDir(fs: Fs, base: string): (r: Reply)
    ensures r.Ok?
    ensures HeaderValue(r.headers, ContentType) == Some(HtmlUtf8)
    ensures ShowsParentLink(r.body) <==> HasParent(Parse(base))
  {
    ListingReply(fs, base)
  }

  /**
   * The root route shows the `../` link for every relative served
   * directory, the default `.` included, although nothing above it is
   * served.
   */
  lemma RelativeRootShowsParentLink(fs: Fs, base: string)
    requires base != "" && !IsAbsolute(base)
    ensures ShowsParentLink(HandleDir(fs, base).body)
  {
    NonEmptyParse(base);
    CompsShape(Split(base), true);
    var p := Parse(base);
    assert p == Comps(Split(base), true);
    assert p[|p| - 1] != RootDir;
  }

  /**
   * Serving the filesystem root itself lists without the `../` link: the
   * instance of `NoParentLinkExactly` for `/`, whose only component is
   * the root.
   */
  lemma FilesystemRootHasNoParentLink(fs: Fs)
    ensures !ShowsParentLink(HandleDir(fs, "/").body)
  {
    SplitSingle("");
    assert "/" == "" + [Sep] + "";
    SplitAppend("", "");
    assert Parse("/") == [RootDir];
  }

  /**
   * The root page lacks the `../` link exactly when the served directory
   * has no components or only the root (`/`, `//`, `/.`, ...).
   */
  lemma NoParentLinkExactly(fs: Fs, base: string)
    ensures !ShowsParentLink(HandleDir(fs, base).body) <==> Parse(base) == [] || Parse(base) == [RootDir]
  {
    var p := Parse(base);
    ParseWellFormed(base);
    if |p| > 0 && p[|p| - 1] == RootDir {
      assert |p| == 1;
      assert p == [p[0]];
    }
  }

  // ---------------------------------------------------------------------
  // Files
  // ---------------------------------------------------------------------

  /** The `Content-Disposition` value offering `name` as the download's file name. */
  function Disposition(name: string): string
  {
    "attachment; filename=\"" + name + "\""
  }

  const DispositionOpen: string := "attachment; filename=\""

  /** Reads the suggested file name back out of a `Content-Disposition` value. */
  function DispositionName(value: string): Option<string>
  {
    if |value| >= |DispositionOpen| + 1 && value[..|DispositionOpen|] == DispositionOpen && value[|value| - 1] == '"'
    then Some(value[|DispositionOpen|..|value| - 1])
    else None
  }

  lemma DispositionRoundTrip(name: string)
    ensures DispositionName(Disposition(name)) == Some(name)
  {
    var v := Disposition(name);
    assert v == DispositionOpen + name + "\"";
    assert v[..|DispositionOpen|] == DispositionOpen;
    assert v[|DispositionOpen|..|v| - 1] == name;
  }

  /** A disposition value is valid exactly when the name in it is. */
  lemma DispositionValid(name: string)
    ensures ValidHeaderValue(Disposition(name)) <==> ValidHeaderValue(name)
  {
    var v := Disposition(name);
    assert v == DispositionOpen + name + "\"";
    assert forall i :: 0 <= i < |name| ==> v[|DispositionOpen| + i] == name[i];
    assert forall i :: 0 <= i < |DispositionOpen| ==> v[i] == DispositionOpen[i];
    if ValidHeaderValue(name) {
      forall i | 0 <= i < |v| ensures v[i] == '\t' || (' ' <= v[i] && v[i] != '\U{7F}') {
        if i < |DispositionOpen| {
        } else if i < |DispositionOpen| + |name| {
          assert v[i] == name[i - |DispositionOpen|];
        }
      }
    }
  }

  /**
   * The response for a file whose contents were read: the file name is
   * the last component of the path, or `download` when it has none; the
   * type is the guess, or octet-stream. A header value that is not valid
   * makes the handler panic.
   */
  function FileReply(full: string, contents: string, guess: string -> Option<string>): (r: Reply)
    ensures !r.Err?
    ensures r.Ok? <==> (ValidHeaderValue(guess(full).GetOr(OctetStream))
                        && ValidHeaderValue(FileName(Parse(full)).GetOr(DownloadFallback)))
    ensures r.Ok? ==> r.body == contents
    ensures r.Ok? ==> HeaderValue(r.headers, ContentType) == Some(guess(full).GetOr(OctetStream))
    ensures r.Ok? ==> var d := HeaderValue(r.headers, ContentDisposition);
      d.Some? && DispositionName(d.value) == Some(FileName(Parse(full)).GetOr(DownloadFallback))
  {
    var name := FileName(Parse(full)).GetOr(DownloadFallback);
    var mime := guess(full).GetOr(OctetStream);
    var disposition := Disposition(name);
    DispositionValid(name);
    DispositionRoundTrip(name);
    if !ValidHeaderValue(mime) || !ValidHeaderValue(disposition) then Aborted
    else Ok([Header(ContentType, mime), Header(ContentDisposition, disposition)], contents)
  }

  /**
   * What the wildcard route does once a path has passed its checks: a
   * listing for a directory, otherwise the file's contents, or 500 when
   * they cannot be read.
   */
  function Serve(fs: Fs, full: string, guess: string -> Option<string>): (r: Reply)
    requires Exists(fs, full)
    ensures IsDir(fs, full) ==> r == ListingReply(fs, full)
    ensures r.Err? <==> !IsDir(fs, full) && ReadFile(fs, full).None?
    ensures r.Err? ==> r == Err(InternalServerError, "Failed to read file")
    ensures r.Ok? && !IsDir(fs, full) ==> Some(r.body) == ReadFile(fs, full)
    ensures !IsDir(fs, full) && ReadFile(fs, full).Some? ==> r == FileReply(full, ReadFile(fs, full).value, guess)
  {
    if IsDir(fs, full) then ListingReply(fs, full)
    else match ReadFile(fs, full)
      case None => Err(InternalServerError, "Failed to read file")
      case Some(contents) => FileReply(full, contents, guess)
  }

  // ---------------------------------------------------------------------
  // The wildcard route
  // ---------------------------------------------------------------------

  /**
   * `handle_path`: joins the captured path onto the served directory and
   * classifies the result. Missing is checked before containment, and
   * containment is the lexical, component-wise `starts_with`.
   */
  function HandlePath(fs: Fs, base: string, request: string, guess: string -> Option<string>): (r: Reply)
    ensures r == Err(NotFound, "File not found") <==> !Exists(fs, JoinStr(base, request))
    ensures r == Err(Forbidden, "Access denied") <==>
      Exists(fs, JoinStr(base, request)) && !StartsWith(Parse(JoinStr(base, request)), Parse(base))
    ensures r.Err? && r.status == InternalServerError ==> ReadFile(fs, JoinStr(base, request)).None?
    ensures r.Ok? ==> Exists(fs, JoinStr(base, request))
    ensures Exists(fs, JoinStr(base, request)) && StartsWith(Parse(JoinStr(base, request)), Parse(base)) ==>
      r == Serve(fs, JoinStr(base, request), guess)
  {
    var full := JoinStr(base, request);
    if !Exists(fs, full) then Err(NotFound, "File not found")
    else if !StartsWith(Parse(full), Parse(base)) then Err(Forbidden, "Access denied")
    else Serve(fs, full, guess)
  }

  /** A path that does not exist is 404 even when it also escapes the served directory. */
  lemma MissingBeforeForbidden(fs: Fs, base: string, request: string, guess: string -> Option<string>)
    requires !Exists(fs, JoinStr(base, request))
    requires !StartsWith(Parse(JoinStr(base, request)), Parse(base))
    ensures HandlePath(fs, base, request, guess).status.Code() == 404
  {
  }

  /** A relative captured path is never refused with 403. */
  lemma RelativeNeverForbidden(fs: Fs, base: string, request: string, guess: string -> Option<string>)
    requires !IsAbsolute(request)
    ensures HandlePath(fs, base, request, guess) != Err(Forbidden, "Access denied")
  {
    JoinRelativeStartsWith(base, request);
  }

  /**
   * 403 happens only when the captured path is absolute, replaces the
   * served directory, names something that exists, and does not start
   * with the served directory.
   */
  lemma ForbiddenOnlyWhenAbsolute(fs: Fs, base: string, request: string, guess: string -> Option<string>)
    requires HandlePath(fs, base, request, guess).Err?
    requires HandlePath(fs, base, request, guess).status == Forbidden
    ensures IsAbsolute(request)
    ensures Exists(fs, request) && !StartsWith(Parse(request), Parse(base))
  {
    if !IsAbsolute(request) {
      RelativeNeverForbidden(fs, base, request, guess);
    }
  }

  /**
   * A directory that passes the containment test is answered with its
   * listing, whether the request was relative or absolute.
   */
  lemma DirectoryIsListed(fs: Fs, base: string, request: string, guess: string -> Option<string>)
    requires StartsWith(Parse(JoinStr(base, request)), Parse(base))
    requires IsDir(fs, JoinStr(base, request))
    ensures HandlePath(fs, base, request, guess) == ListingReply(fs, JoinStr(base, request))
  {
  }

  /** A relative request naming a directory is always listed. */
  lemma RelativeDirectoryIsListed(fs: Fs, base: string, request: string, guess: string -> Option<string>)
    requires !IsAbsolute(request)
    requires IsDir(fs, JoinStr(base, request))
    ensures HandlePath(fs, base, request, guess) == ListingReply(fs, JoinStr(base, request))
  {
    JoinRelativeStartsWith(base, request);
    DirectoryIsListed(fs, base, request, guess);
  }

  /**
   * A readable file that passes the containment test, at any depth, is
   * answered with its contents, the guessed type or octet-stream, and an
   * attachment under its last component (or `download`).
   */
  lemma ContainedFileReply(fs: Fs, base: string, request: string, guess: string -> Option<string>)
    requires StartsWith(Parse(JoinStr(base, request)), Parse(base))
    requires !IsDir(fs, JoinStr(base, request)) && ReadFile(fs, JoinStr(base, request)).Some?
    ensures var full := JoinStr(base, request);
      HandlePath(fs, base, request, guess) == FileReply(full, ReadFile(fs, full).value, guess)
    ensures var full := JoinStr(base, request);
      var r := HandlePath(fs, base, request, guess);
      r.Ok? ==>
        && r.body == ReadFile(fs, full).value
        && HeaderValue(r.headers, ContentType) == Some(guess(full).GetOr(OctetStream))
        && DispositionName(HeaderValue(r.headers, ContentDisposition).value) == Some(FileName(Parse(full)).GetOr(DownloadFallback))
  {
  }

  /** A file that passes the containment test but cannot be read is 500. */
  lemma UnreadableFileFails(fs: Fs, base: string, request: string, guess: string -> Option<string>)
    requires StartsWith(Parse(JoinStr(base, request)), Parse(base))
    requires Exists(fs, JoinStr(base, request)) && !IsDir(fs, JoinStr(base, request))
    requires ReadFile(fs, JoinStr(base, request)).None?
    ensures HandlePath(fs, base, request, guess) == Err(InternalServerError, "Failed to read file")
  {
  }

  /**
   * In a well-formed tree a file is always offered under its own name:
   * the `download` fallback is never used, and the body is the contents.
   */
  lemma FileOfferedUnderItsName(fs: Fs, base: string, request: string, guess: string -> Option<string>)
    requires WellFormed(fs)
    requires HandlePath(fs, base, request, guess).Ok?
    requires !IsDir(fs, JoinStr(base, request))
    ensures var loc := Locate(fs, JoinStr(base, request)).value;
      var r := HandlePath(fs, base, request, guess);
      && |loc| > 0
      && fs.nodes[loc] == File(Some(r.body))
      && DispositionName(HeaderValue(r.headers, ContentDisposition).value) == Some(loc[|loc| - 1])
  {
    var full := JoinStr(base, request);
    var r := HandlePath(fs, base, request, guess);
    var loc := Locate(fs, full).value;
    assert r == Serve(fs, full, guess);
    var contents := ReadFile(fs, full).value;
    assert fs.nodes[loc] == File(Some(contents));
    assert r == FileReply(full, contents, guess);
    FileNameOfFile(fs, full);
  }

  /**
   * Requesting a readable file by its name in the served directory
   * returns 200, its exact contents, the guessed type, and its name as
   * the download's file name.
   */
  lemma DownloadRoundTrip(fs: Fs, base: string, n: string, contents: string, guess: string -> Option<string>)
    requires ValidName(n) && ValidHeaderValue(n)
    requires Locate(fs, base).Some? && IsDirAt(fs, Locate(fs, base).value)
    requires Locate(fs, base).value + [n] in fs.nodes
    requires fs.nodes[Locate(fs, base).value + [n]] == File(Some(contents))
    requires ValidHeaderValue(guess(JoinStr(base, n)).GetOr(OctetStream))
    ensures HandlePath(fs, base, n, guess) ==
      Ok([Header(ContentType, guess(JoinStr(base, n)).GetOr(OctetStream)), Header(ContentDisposition, Disposition(n))],
         contents)
  {
    var full := JoinStr(base, n);
    LocateChild(fs, base, n);
    assert !IsAbsolute(n) by { assert n[0] != Sep; }
    JoinRelativeStartsWith(base, n);
    JoinNameFileName(base, n);
    DispositionValid(n);
  }

  // ---------------------------------------------------------------------
  // What a listing shows
  // ---------------------------------------------------------------------

  /** Every name an enumeration yields is shown under its own name (the `unknown` fallback never applies). */
  lemma ListedNamesAreFileNames(fs: Fs, path: string)
    requires ReadDir(fs, path).Some?
    ensures forall i :: 0 <= i < |ReadDir(fs, path).value| && ReadDir(fs, path).value[i].Some? ==>
      FileName(Parse(JoinStr(path, ReadDir(fs, path).value[i].value))) == Some(ReadDir(fs, path).value[i].value)
  {
    var raw := ReadDir(fs, path).value;
    forall i | 0 <= i < |raw| && raw[i].Some?
      ensures FileName(Parse(JoinStr(path, raw[i].value))) == Some(raw[i].value)
    {
      JoinNameFileName(path, raw[i].value);
    }
  }

  /**
   * A listing page shows the `../` link exactly when the path has a
   * parent, then one item per successfully read entry: directories first,
   * by name within each kind, each entry as often as it was read, each
   * marked as a directory exactly when the joined path is one. A failed
   * enumeration shows an empty list.
   */
  lemma ListingShows(fs: Fs, path: string)
    ensures var shown := ParsePage(ListingReply(fs, path).body);
      && shown.Some?
      && shown.value.0 == HasParent(Parse(path))
      && DirsFirst(shown.value.1) && NamesOrderedWithinKind(shown.value.1)
      && (ReadDir(fs, path).None? ==> shown.value.1 == [])
      && (ReadDir(fs, path).Some? ==> forall e ::
            multiset(shown.value.1)[e] == multiset(Enumerate(fs, path).value)[Some(e)])
  {
    var en := Enumerate(fs, path);
    if en.Some? {
      forall i | 0 <= i < |en.value| && en.value[i].Some? ensures NoSlash(en.value[i].value.name) {
        var n: Name := ReadDir(fs, path).value[i].value;
        assert ValidName(n);
      }
    }
    PageRoundTrip(HasParent(Parse(path)), en);
    var es := Listed(en);
    SortedMeans(es);
  }
}

=== FILE: listing.dfy ===
/**
 * The HTML directory listing: a fixed preamble, a `../` link when the
 * listed path has a parent, then an unordered list with one item per
 * successfully read entry in the comparator's order, then the closing tags.
 * An enumeration that fails leaves the list empty.
 *
 * `ParsePage` reads a page back into the flag and the entries it was
 * rendered from; the round trip (`PageRoundTrip`) is what pins the page
 * down: one item per entry, in sorted order, nothing else. Names are
 * not escaped; the reader relies only on names holding no `/`.
 */
module Listing {
  import opened Wrappers
  import opened Sequences
  import opened Entries
  import opened Sorting

  /** The document head and heading every listing starts with (style sheet omitted). */
  const Preamble: string :=
    "<!DOCTYPE html>\n<html>\n<head>\n    <meta charset=\"utf-8\">\n    <title>Directory listing</title>\n</head>\n<body>\n    <h1>Directory listing</h1>"

  const FolderIcon: string := "\U{1F4C1}"
  const FileIcon: string := "\U{1F4C4}"

  const ParentLink: string := "<p><a href=\"../\">" + FolderIcon + " ..</a></p>"
  const ListOpen: string := "<ul>"
  const Footer: string := "</ul></body></html>"

  /** How an item opens, up to the start of its link target. */
  function ItemOpen(isDir: bool): string
  {
    "<li>" + (if isDir then FolderIcon else FileIcon) + " <a href=\""
  }

  /** What an item shows for an entry: directories carry a trailing `/`. */
  function Shown(e: Entry): string
  {
    if e.isDir then e.name + "/" else e.name
  }

  /** The text between the link target and the end of the item. */
  function ItemClose(shown: string): string
  {
    "\">" + shown + "</a></li>"
  }

  /** One list item: a directory links to `name/`, a file to `name`. */
  function Item(e: Entry): string
  {
    ItemOpen(e.isDir) + (Shown(e) + ItemClose(Shown(e)))
  }

  /** The items of a sequence of entries, in order. */
  function Items(es: seq<Entry>): string
    decreases |es|
  {
    if |es| == 0 then "" else Item(es[0]) + Items(es[1..])
  }

  /**
   * `filter_map(Result::ok)`: the entries whose read succeeded, in
   * enumeration order. Each entry keeps its number of occurrences.
   */
  function Successful(raw: seq<Option<Entry>>): (r: seq<Entry>)
    ensures |r| <= |raw|
    ensures forall e :: multiset(r)[e] == multiset(raw)[Some(e)]
    decreases |raw|
  {
    if |raw| == 0 then []
    else
      assert raw == [raw[0]] + raw[1..];
      match raw[0]
      case Some(e) => [e] + Successful(raw[1..])
      case None => Successful(raw[1..])
  }

  /** The entries the page lists: none when enumeration failed. */
  function Listed(enumeration: Option<seq<Option<Entry>>>): (r: seq<Entry>)
    ensures Sorted(r)
    ensures enumeration.None? ==> r == []
    ensures enumeration.Some? ==> forall e :: multiset(r)[e] == multiset(enumeration.value)[Some(e)]
  {
    match enumeration
    case None => []
    case Some(raw) => SortEntries(Successful(raw))
  }

  /** The page starts with the `../` link right after the preamble. */
  predicate ShowsParentLink(html: string)
  {
    |Preamble| + |ParentLink| <= |html| && html[|Preamble|..|Preamble| + |ParentLink|] == ParentLink
  }

  predicate HasPrefix(s: string, prefix: string)
  {
    IsPrefix(prefix, s)
  }

  predicate HasSuffix(s: string, suffix: string)
  {
    |suffix| <= |s| && s[|s| - |suffix|..] == suffix
  }

  lemma AppendParts(a: string, b: string)
    ensures HasPrefix(a + b, a) && HasSuffix(a + b, b) && (a + b)[|a|..] == b
  {
    assert (a + b)[..|a|] == a;
    assert (a + b)[|a + b| - |b|..] == b;
  }

  lemma SuffixAppend(a: string, b: string, c: string)
    requires HasSuffix(b, c)
    ensures HasSuffix(a + b, c)
  {
    assert (a + b)[|a + b| - |c|..] == b[|b| - |c|..];
  }

  /** One differing character rules a prefix out. */
  lemma NoPrefixAt(s: string, prefix: string, i: nat)
    requires i < |prefix| && i < |s| && s[i] != prefix[i]
    ensures !HasPrefix(s, prefix)
  {
  }

  /**
   * The frame of a page: whatever sits between a head and a tail, a page
   * keeps both, and it holds the link right after the head exactly when
   * the link was put there, provided the list that follows cannot be
   * mistaken for the link.
   */
  lemma Frame(head: string, link: string, hasLink: bool, list: string, tail: string)
    requires 1 < |list| && 1 < |link| && list[1] != link[1]
    ensures var html := head + ((if hasLink then link else "") + (list + tail));
      && HasPrefix(html, head)
      && HasSuffix(html, tail)
      && ((|head| + |link| <= |html| && html[|head|..|head| + |link|] == link) <==> hasLink)
  {
    var shown := if hasLink then link else "";
    var body := shown + (list + tail);
    var html := head + body;
    AppendParts(head, body);
    AppendParts(list, tail);
    SuffixAppend(shown, list + tail, tail);
    SuffixAppend(head, body, tail);
    assert html[|head|..] == body;
    if |head| + |link| <= |html| {
      assert html[|head|..|head| + |link|] == body[..|link|];
    }
    if hasLink {
      AppendParts(link, list + tail);
    } else {
      assert body[1] == list[1];
    }
  }

  /** The list opening is never mistaken for the `../` link. */
  lemma ListIsNotLink()
    ensures 1 < |ParentLink| && 1 < |ListOpen| && ParentLink[1] != ListOpen[1]
  {
  }

  /** The frame facts of a page holding `items`. */
  lemma PageFrame(hasParent: bool, items: string)
    ensures var html := Preamble + ((if hasParent then ParentLink else "") + (ListOpen + (items + Footer)));
      && HasPrefix(html, Preamble)
      && HasSuffix(html, Footer)
      && (ShowsParentLink(html) <==> hasParent)
  {
    ListIsNotLink();
    Frame(Preamble, ParentLink, hasParent, ListOpen, items + Footer);
    var shown := if hasParent then ParentLink else "";
    AppendParts(items, Footer);
    SuffixAppend(ListOpen, items + Footer, Footer);
    SuffixAppend(shown, ListOpen + (items + Footer), Footer);
    SuffixAppend(Preamble, shown + (ListOpen + (items + Footer)), Footer);
  }

  /** A page listing `entries` in the order given, with or without the `../` link. */
  function Render(hasParent: bool, entries: seq<Entry>): (html: string)
    ensures HasPrefix(html, Preamble)
    ensures HasSuffix(html, Footer)
    ensures ShowsParentLink(html) <==> hasParent
  {
    PageFrame(hasParent, Items(entries));
    Preamble + ((if hasParent then ParentLink else "") + (ListOpen + (Items(entries) + Footer)))
  }

  /**
   * `generate_directory_listing`'s page: the successful entries of the
   * enumeration, sorted; an empty list when enumeration failed.
   */
  function Page(hasParent: bool, enumeration: Option<seq<Option<Entry>>>): string
  {
    Render(hasParent, Listed(enumeration))
  }

  /** When enumeration fails the list is empty: the page is just the frame. */
  lemma FailedEnumerationIsEmpty(hasParent: bool)
    ensures Page(hasParent, None) == Preamble + ((if hasParent then ParentLink else "") + (ListOpen + Footer))
  {
    assert Listed(None) == [];
    assert Items([]) + Footer == Footer;
  }

  // ---------------------------------------------------------------------
  // Reading a page back
  // ---------------------------------------------------------------------

  /** The first index of `c` in `s`. */
  function IndexOf(s: string, c: char): (r: Option<nat>)
    ensures r.Some? ==> r.value < |s| && s[r.value] == c && c !in s[..r.value]
    ensures r.None? ==> c !in s
    decreases |s|
  {
    if |s| == 0 then None
    else if s[0] == c then Some(0)
    else match IndexOf(s[1..], c)
      case Some(k) => assert s[..k + 1] == [s[0]] + s[1..][..k]; Some(k + 1)
      case None => assert s == [s[0]] + s[1..]; None
  }

  lemma IndexOfAfter(a: string, c: char, b: string)
    requires c !in a
    ensures IndexOf(a + [c] + b, c) == Some(|a|)
  {
    var r := IndexOf(a + [c] + b, c);
    assert (a + [c] + b)[|a|] == c;
  }

  /**
   * Reads one item off the front of `s`: the entry and the item's length.
   * Names hold no `/`, so the first `/` after the opening is the one that
   * ends a directory's link target, or, in a file item, the one in `</a>`
   * after the name, `">` and the name again.
   */
  function ParseItem(s: string): (r: Option<(Entry, nat)>)
    ensures r.Some? ==> 0 < r.value.1 <= |s| && s[..r.value.1] == Item(r.value.0)
  {
    var isDir := HasPrefix(s, ItemOpen(true));
    if !isDir && !HasPrefix(s, ItemOpen(false)) then None
    else
      var rest := s[|ItemOpen(isDir)|..];
      match IndexOf(rest, '/')
      case None => None
      case Some(k) =>
        var e := Entry(TargetName(rest, isDir, k), isDir);
        if HasPrefix(s, Item(e)) then Some((e, |Item(e)|)) else None
  }

  /**
   * The name an item's text starts with, given where its first `/` is:
   * right after the name for a directory, after the name twice and `"><`
   * for a file.
   */
  function TargetName(rest: string, isDir: bool, k: nat): string
    requires k <= |rest|
  {
    if isDir then rest[..k] else if k < 3 then "" else rest[..(k - 3) / 2]
  }

  /** Reads a run of items back into the entries they show. */
  function ParseItems(s: string): Option<seq<Entry>>
    decreases |s|
  {
    if |s| == 0 then Some([])
    else match ParseItem(s)
      case None => None
      case Some((e, k)) =>
        match ParseItems(s[k..])
        case None => None
        case Some(es) => Some([e] + es)
  }

  /** Reads a page back into whether it shows the `../` link and the entries it lists. */
  function ParsePage(html: string): Option<(bool, seq<Entry>)>
  {
    if !HasPrefix(html, Preamble) then None
    else
      var afterPreamble := html[|Preamble|..];
      var hasParent := HasPrefix(afterPreamble, ParentLink);
      var list := if hasParent then afterPreamble[|ParentLink|..] else afterPreamble;
      if !HasPrefix(list, ListOpen) || !HasSuffix(list[|ListOpen|..], Footer) then None
      else
        var body := list[|ListOpen|..];
        match ParseItems(body[..|body| - |Footer|])
        case None => None
        case Some(es) => Some((hasParent, es))
  }

  /** A name a directory entry can carry holds no `/`. */
  predicate NoSlash(name: string)
  {
    '/' !in name
  }

  /** An item followed by anything opens as an item of its own kind and not of the other. */
  lemma ItemOpening(e: Entry, t: string)
    ensures var s := Item(e) + t;
      HasPrefix(s, ItemOpen(e.isDir)) && !HasPrefix(s, ItemOpen(!e.isDir))
  {
    var s := Item(e) + t;
    var open := ItemOpen(e.isDir);
    assert s == open + ((Shown(e) + ItemClose(Shown(e))) + t);
    assert s[..|open|] == open;
    assert s[4] == open[4];
    assert open[4] != ItemOpen(!e.isDir)[4];
  }

  /** A directory item after its opening: the name, its `/`, then the rest. */
  lemma DirItemShape(n: string, t: string)
    ensures Item(Entry(n, true)) + t == ItemOpen(true) + (n + ['/'] + ("\">" + n + "/</a></li>" + t))
  {
    assert Shown(Entry(n, true)) == n + ['/'];
  }

  /** A file item after its opening: the name, `">`, the name, `<`, then the `/` of `</a>`. */
  lemma FileItemShape(n: string, t: string)
    ensures Item(Entry(n, false)) + t == ItemOpen(false) + ((n + "\">" + n + "<") + ['/'] + ("a></li>" + t))
  {
    assert "</a></li>" == "<" + ['/'] + "a></li>";
  }

  /** Text `pre + "/" + tail` with no `/` in `pre`: its first `/` ends `pre`, which it starts with. */
  lemma FirstSlash(open: string, pre: string, tail: string, m: nat)
    requires NoSlash(pre) && m <= |pre|
    ensures var rest := (open + (pre + ['/'] + tail))[|open|..];
      IndexOf(rest, '/') == Some(|pre|) && rest[..m] == pre[..m]
  {
    var rest := pre + ['/'] + tail;
    AppendParts(open, rest);
    IndexOfAfter(pre, '/', tail);
    assert rest[..m] == pre[..m];
  }

  /** After a directory item's opening come its name and then its first `/`. */
  lemma DirTarget(n: string, t: string)
    requires NoSlash(n)
    ensures var rest := (Item(Entry(n, true)) + t)[|ItemOpen(true)|..];
      IndexOf(rest, '/') == Some(|n|) && rest[..|n|] == n
  {
    DirItemShape(n, t);
    FirstSlash(ItemOpen(true), n, "\">" + n + "/</a></li>" + t, |n|);
    assert n[..|n|] == n;
  }

  /** After a file item's opening come its name, `">`, the name, `<`, and then its first `/`. */
  lemma FileTarget(n: string, t: string)
    requires NoSlash(n)
    ensures var rest := (Item(Entry(n, false)) + t)[|ItemOpen(false)|..];
      IndexOf(rest, '/') == Some(2 * |n| + 3) && rest[..|n|] == n
  {
    var pre := n + "\">" + n + "<";
    FileItemShape(n, t);
    assert NoSlash(pre) by {
      assert pre == n + ("\">" + n + "<");
    }
    FirstSlash(ItemOpen(false), pre, "a></li>" + t, |n|);
    assert pre[..|n|] == n;
  }

  /**
   * After the opening, the text starts with the name, and its first `/`
   * follows the name in a directory item and the name twice and `"><` in
   * a file item.
   */
  lemma ItemTarget(e: Entry, t: string)
    requires NoSlash(e.name)
    ensures var rest := (Item(e) + t)[|ItemOpen(e.isDir)|..];
      && IndexOf(rest, '/') == Some(if e.isDir then |e.name| else 2 * |e.name| + 3)
      && rest[..|e.name|] == e.name
  {
    if e.isDir {
      DirTarget(e.name, t);
    } else {
      FileTarget(e.name, t);
    }
  }

  lemma ParseItemOf(e: Entry, t: string)
    requires NoSlash(e.name)
    ensures ParseItem(Item(e) + t) == Some((e, |Item(e)|))
  {
    var s := Item(e) + t;
    ItemOpening(e, t);
    ItemTarget(e, t);
    var rest := s[|ItemOpen(e.isDir)|..];
    var k := if e.isDir then |e.name| else 2 * |e.name| + 3;
    assert TargetName(rest, e.isDir, k) == e.name;
    AppendParts(Item(e), t);
  }

  /** Names are not escaped, yet a name holding double quotes still reads back. */
  lemma QuotedNameReadsBack()
    ensures var e := Entry("say \"hi\"", false);
      ParseItem(Item(e)) == Some((e, |Item(e)|))
  {
    var e := Entry("say \"hi\"", false);
    ParseItemOf(e, "");
    assert Item(e) + "" == Item(e);
  }

  /** Reading items: one item, then the rest. */
  lemma ParseItemsCons(s: string, e: Entry, k: nat, more: seq<Entry>)
    requires |s| > 0 && ParseItem(s) == Some((e, k))
    requires ParseItems(s[k..]) == Some(more)
    ensures ParseItems(s) == Some([e] + more)
  {
  }

  lemma {:induction false} ParseItemsOf(es: seq<Entry>)
    requires forall i :: 0 <= i < |es| ==> NoSlash(es[i].name)
    ensures ParseItems(Items(es)) == Some(es)
    decreases |es|
  {
    if |es| > 0 {
      var s := Items(es);
      var first := Item(es[0]);
      var rest := Items(es[1..]);
      assert s == first + rest;
      ParseItemOf(es[0], rest);
      AppendParts(first, rest);
      ParseItemsOf(es[1..]);
      ParseItemsCons(s, es[0], |first|, es[1..]);
      assert es == [es[0]] + es[1..];
    }
  }

  /** After the preamble, the `../` link is told apart from the list by its second character. */
  lemma LinkDecides(hasParent: bool, list: string)
    requires HasPrefix(list, ListOpen)
    ensures HasPrefix((if hasParent then ParentLink else "") + list, ParentLink) <==> hasParent
    ensures ((if hasParent then ParentLink else "") + list)[|if hasParent then ParentLink else ""|..] == list
  {
    var link := if hasParent then ParentLink else "";
    AppendParts(link, list);
    if !hasParent {
      assert list[1] == ListOpen[1];
      NoPrefixAt(list, ParentLink, 1);
    }
  }

  /** Reading a rendered page back recovers the flag and the entries, in order. */
  lemma RenderRoundTrip(hasParent: bool, entries: seq<Entry>)
    requires forall i :: 0 <= i < |entries| ==> NoSlash(entries[i].name)
    ensures ParsePage(Render(hasParent, entries)) == Some((hasParent, entries))
  {
    var link := if hasParent then ParentLink else "";
    var items := Items(entries);
    var list := ListOpen + (items + Footer);
    var html := Render(hasParent, entries);
    assert html == Preamble + (link + list);
    AppendParts(Preamble, link + list);
    AppendParts(ListOpen, items + Footer);
    LinkDecides(hasParent, list);
    var body := list[|ListOpen|..];
    assert body == items + Footer;
    AppendParts(items, Footer);
    assert body[..|body| - |Footer|] == items;
    ParseItemsOf(entries);
  }

  /**
   * Reading a page back recovers exactly whether it has the `../` link
   * and the sorted successful entries, whose names, like every name in a
   * directory, hold no `/`.
   */
  lemma PageRoundTrip(hasParent: bool, enumeration: Option<seq<Option<Entry>>>)
    requires enumeration.Some? ==> forall i :: 0 <= i < |enumeration.value| && enumeration.value[i].Some? ==>
      NoSlash(enumeration.value[i].value.name)
    ensures ParsePage(Page(hasParent, enumeration)) == Some((hasParent, Listed(enumeration)))
  {
    var es := Listed(enumeration);
    forall i | 0 <= i < |es| ensures NoSlash(es[i].name) {
      var e := es[i];
      assert e in multiset(es);
      var raw := enumeration.value;
      assert Some(e) in multiset(raw);
      var k :| 0 <= k < |raw| && raw[k] == Some(e);
    }
    RenderRoundTrip(hasParent, es);
  }

  /**
   * The listing is ordered by the comparator, and its order depends only
   * on which entries were read, not on the order they arrived in.
   */
  lemma ListedIsSortedPermutation(raw: seq<Option<Entry>>, other: seq<Option<Entry>>)
    requires multiset(raw) == multiset(other)
    ensures Sorted(Listed(Some(raw)))
    ensures Listed(Some(raw)) == Listed(Some(other))
  {
    var a, b := Successful(raw), Successful(other);
    assert multiset(a) == multiset(b) by {
      forall e ensures multiset(a)[e] == multiset(b)[e] {
      }
    }
    SortIgnoresArrivalOrder(a, b);
  }
}

=== FILE: paths.dfy ===
/**
 * Lexical Unix paths as Rust's `std::path` sees them: the string form a
 * `PathBuf` holds, the component sequence `Path::components` yields from it,
 * and the operations the request handler uses on them (`join`,
 * `starts_with`, `parent`, `file_name`). Nothing here touches a filesystem:
 * `..` is an ordinary component and is never resolved.
 */
module Paths {
  import opened Wrappers
  import opened Sequences

  /** One component of a parsed path. */
  datatype Component = RootDir | CurDir | ParentDir | Normal(name: string)

  /** A path as the sequence of its components. */
  type Path = seq<Component>

  /** A name that `components` yields as a `Normal` component. */
  predicate ValidName(s: string)
  {
    s != "" && s != "." && s != ".." && '/' !in s
  }

  /** A name a directory entry can have. */
  type Name = s: string | ValidName(s) witness "x"

  /** The only separator on Unix. */
  const Sep: char := '/'

  /** A path string is absolute when it starts with the root separator. */
  predicate IsAbsolute(s: string)
  {
    |s| > 0 && s[0] == Sep
  }

  /** A component sequence is absolute when it starts with the root. */
  predicate IsAbsolutePath(p: Path)
  {
    |p| > 0 && p[0] == RootDir
  }

  /** The shape every parsed path has: the root and `.` only up front, valid names. */
  predicate WellFormedPath(p: Path)
  {
    && (forall i :: 0 < i < |p| ==> p[i] != RootDir && p[i] != CurDir)
    && (forall i :: 0 <= i < |p| && p[i].Normal? ==> ValidName(p[i].name))
  }

  // ---------------------------------------------------------------------
  // Segments: the raw pieces between separators.
  // ---------------------------------------------------------------------

  /** The pieces of `s` between separators, empty pieces included. */
  function Split(s: string): (segs: seq<string>)
    ensures |segs| >= 1
    decreases |s|
  {
    if |s| == 0 then [""]
    else if s[0] == Sep then [""] + Split(s[1..])
    else
      var r := Split(s[1..]);
      [[s[0]] + r[0]] + r[1..]
  }

  /** No segment contains a separator. */
  lemma {:induction false} SplitNoSep(s: string)
    ensures forall i :: 0 <= i < |Split(s)| ==> Sep !in Split(s)[i]
    decreases |s|
  {
    if |s| > 0 {
      SplitNoSep(s[1..]);
      if s[0] != Sep {
        var r := Split(s[1..]);
        assert Split(s) == [[s[0]] + r[0]] + r[1..];
        assert Sep !in [s[0]] + r[0];
        forall i | 0 < i < |Split(s)| ensures Sep !in Split(s)[i] {
          assert Split(s)[i] == r[i];
        }
      }
    }
  }

  /** Glues segments back together with separators: the inverse of `Split`. */
  function Unsplit(segs: seq<string>): string
    requires |segs| >= 1
  {
    if |segs| == 1 then segs[0] else segs[0] + [Sep] + Unsplit(segs[1..])
  }

  lemma {:induction false} UnsplitSplit(s: string)
    ensures Unsplit(Split(s)) == s
    decreases |s|
  {
    if |s| == 0 {
    } else if s[0] == Sep {
      UnsplitSplit(s[1..]);
      assert s == [Sep] + s[1..];
    } else {
      var r := Split(s[1..]);
      UnsplitSplit(s[1..]);
      if |r| == 1 {
        assert s == [s[0]] + s[1..];
      } else {
        assert Unsplit(r) == r[0] + [Sep] + Unsplit(r[1..]);
        assert Unsplit([[s[0]] + r[0]] + r[1..]) == [s[0]] + r[0] + [Sep] + Unsplit(r[1..]);
        assert s == [s[0]] + s[1..];
      }
    }
  }

  /** A string with no separator is a single segment. */
  lemma {:induction false} SplitSingle(s: string)
    requires Sep !in s
    ensures Split(s) == [s]
    decreases |s|
  {
    if |s| > 0 {
      assert s[0] != Sep;
      assert Sep !in s[1..] by {
        forall i | 0 <= i < |s[1..]| ensures s[1..][i] != Sep {
          assert s[1..][i] == s[i + 1];
        }
      }
      SplitSingle(s[1..]);
      assert [s[0]] + s[1..] == s;
    }
  }

  /** `Split` on a string with a known first character. */
  lemma SplitCons(c: char, t: string)
    ensures Split([c] + t) == if c == Sep then [""] + Split(t) else [[c] + Split(t)[0]] + Split(t)[1..]
  {
    assert ([c] + t)[0] == c;
    assert ([c] + t)[1..] == t;
  }

  /** Consing a character distributes over appending more segments. */
  lemma ConsSegments(c: char, rx: seq<string>, ry: seq<string>)
    requires |rx| >= 1
    ensures (if c == Sep then [""] + (rx + ry) else [[c] + (rx + ry)[0]] + (rx + ry)[1..])
         == (if c == Sep then [""] + rx else [[c] + rx[0]] + rx[1..]) + ry
  {
    if c != Sep {
      assert (rx + ry)[0] == rx[0];
      assert (rx + ry)[1..] == rx[1..] + ry;
    }
  }

  /** Splitting at a separator splits the segment lists apart. */
  lemma {:induction false} SplitAppend(x: string, y: string)
    ensures Split(x + [Sep] + y) == Split(x) + Split(y)
    decreases |x|
  {
    if |x| == 0 {
      var s := x + [Sep] + y;
      assert s == [Sep] + y;
      SplitCons(Sep, y);
      assert Split(x) == [""];
    } else {
      SplitAppend(x[1..], y);
      var t := x[1..] + [Sep] + y;
      assert x == [x[0]] + x[1..];
      assert x + [Sep] + y == [x[0]] + t;
      SplitCons(x[0], t);
      SplitCons(x[0], x[1..]);
      ConsSegments(x[0], Split(x[1..]), Split(y));
    }
  }

  lemma {:induction false} SplitUnsplit(segs: seq<string>)
    requires |segs| >= 1
    requires forall i :: 0 <= i < |segs| ==> Sep !in segs[i]
    ensures Split(Unsplit(segs)) == segs
    decreases |segs|
  {
    SplitSingle(segs[0]);
    if |segs| > 1 {
      SplitUnsplit(segs[1..]);
      SplitAppend(segs[0], Unsplit(segs[1..]));
      assert segs == [segs[0]] + segs[1..];
    }
  }

  // ---------------------------------------------------------------------
  // Components, as `Path::components` yields them on Unix.
  // ---------------------------------------------------------------------

  /**
   * The components one segment contributes: none for an empty segment, a
   * `CurDir` for `.` only at the very start of a relative path, a
   * `ParentDir` for `..`, otherwise a `Normal` name.
   */
  function SegmentComponents(seg: string, atStart: bool): seq<Component>
  {
    if seg == "" then []
    else if seg == "." then (if atStart then [CurDir] else [])
    else if seg == ".." then [ParentDir]
    else [Normal(seg)]
  }

  /** The components of a sequence of segments; `atStart` says whether the first one opens the path. */
  function Comps(segs: seq<string>, atStart: bool): Path
    decreases |segs|
  {
    if |segs| == 0 then []
    else SegmentComponents(segs[0], atStart) + Comps(segs[1..], false)
  }

  /** Segments never yield the root as their first component. */
  lemma CompsHead(segs: seq<string>, atStart: bool)
    ensures |Comps(segs, atStart)| > 0 ==> Comps(segs, atStart)[0] != RootDir
  {
    CompsShape(segs, atStart);
  }

  /** Segments never yield the root, and yield `.` only first and only at the start. */
  lemma {:induction false} CompsShape(segs: seq<string>, atStart: bool)
    ensures forall i :: 0 <= i < |Comps(segs, atStart)| ==> Comps(segs, atStart)[i] != RootDir
    ensures forall i :: 0 <= i < |Comps(segs, atStart)| && Comps(segs, atStart)[i] == CurDir ==>
      i == 0 && atStart
    decreases |segs|
  {
    if |segs| > 0 {
      CompsShape(segs[1..], false);
      var head := SegmentComponents(segs[0], atStart);
      var rest := Comps(segs[1..], false);
      var p := Comps(segs, atStart);
      assert p == head + rest;
      forall i | 0 <= i < |p| ensures p[i] != RootDir && (p[i] == CurDir ==> i == 0 && atStart) {
        if i >= |head| {
          assert p[i] == rest[i - |head|];
        }
      }
    }
  }

  /** `Comps` on a segment list with a known first segment. */
  lemma CompsCons(seg: string, rest: seq<string>, atStart: bool)
    ensures Comps([seg] + rest, atStart) == SegmentComponents(seg, atStart) + Comps(rest, false)
  {
    assert ([seg] + rest)[0] == seg;
    assert ([seg] + rest)[1..] == rest;
  }

  lemma {:induction false} CompsAppend(xs: seq<string>, ys: seq<string>, atStart: bool)
    requires |xs| >= 1
    ensures Comps(xs + ys, atStart) == Comps(xs, atStart) + Comps(ys, false)
    decreases |xs|
  {
    var head := SegmentComponents(xs[0], atStart);
    assert xs == [xs[0]] + xs[1..];
    assert xs + ys == [xs[0]] + (xs[1..] + ys);
    CompsCons(xs[0], xs[1..] + ys, atStart);
    CompsCons(xs[0], xs[1..], atStart);
    if |xs| == 1 {
      assert xs[1..] + ys == ys;
      assert Comps(xs[1..], false) == [];
      assert Comps(xs, atStart) == head;
    } else {
      CompsAppend(xs[1..], ys, false);
      var a, b := Comps(xs[1..], false), Comps(ys, false);
      assert head + (a + b) == (head + a) + b;
    }
  }

  /** The components of a path string. */
  function Parse(s: string): (p: Path)
    ensures IsAbsolute(s) <==> IsAbsolutePath(p)
  {
    CompsHead(Split(s), true);
    (if IsAbsolute(s) then [RootDir] else []) + Comps(Split(s), true)
  }

  /** Every name `Comps` produces from separator-free segments is a valid name. */
  lemma {:induction false} CompsNames(segs: seq<string>, atStart: bool)
    requires forall i :: 0 <= i < |segs| ==> Sep !in segs[i]
    ensures forall i :: 0 <= i < |Comps(segs, atStart)| && Comps(segs, atStart)[i].Normal? ==>
      ValidName(Comps(segs, atStart)[i].name)
    decreases |segs|
  {
    if |segs| > 0 {
      CompsNames(segs[1..], false);
      var head := SegmentComponents(segs[0], atStart);
      var p := Comps(segs, atStart);
      assert p == head + Comps(segs[1..], false);
      forall i | 0 <= i < |p| && p[i].Normal? ensures ValidName(p[i].name) {
        if i >= |head| {
          assert p[i] == Comps(segs[1..], false)[i - |head|];
        }
      }
    }
  }

  /** `Parse` as its root marker followed by its segment components. */
  lemma ParseDef(s: string)
    ensures Parse(s) == (if IsAbsolute(s) then [RootDir] else []) + Comps(Split(s), true)
  {
  }

  /** An absolute path's segment components hold no `.`: its first segment is empty. */
  lemma AbsoluteNoCurDir(s: string)
    requires IsAbsolute(s)
    ensures forall i :: 0 <= i < |Comps(Split(s), true)| ==> Comps(Split(s), true)[i] != CurDir
  {
    assert s == [s[0]] + s[1..];
    SplitCons(s[0], s[1..]);
    var segs := Split(s);
    assert segs == [""] + Split(s[1..]);
    CompsCons("", Split(s[1..]), true);
    CompsShape(Split(s[1..]), false);
  }

  /** A root marker followed by components with the shape `Comps` guarantees. */
  lemma WellFormedFrom(pre: Path, c: Path)
    requires pre == [] || pre == [RootDir]
    requires forall i :: 0 <= i < |c| ==> c[i] != RootDir
    requires forall i :: 0 <= i < |c| && c[i] == CurDir ==> i == 0 && pre == []
    requires forall i :: 0 <= i < |c| && c[i].Normal? ==> ValidName(c[i].name)
    ensures WellFormedPath(pre + c)
  {
    var p := pre + c;
    forall i | 0 < i < |p| ensures p[i] != RootDir && p[i] != CurDir {
      assert p[i] == c[i - |pre|];
    }
    forall i | 0 <= i < |p| && p[i].Normal? ensures ValidName(p[i].name) {
      assert p[i] == c[i - |pre|];
    }
  }

  /** Every parsed path has the shape `WellFormedPath` describes. */
  lemma ParseWellFormed(s: string)
    ensures WellFormedPath(Parse(s))
  {
    var segs := Split(s);
    SplitNoSep(s);
    CompsNames(segs, true);
    CompsShape(segs, true);
    ParseDef(s);
    if IsAbsolute(s) {
      AbsoluteNoCurDir(s);
    }
    WellFormedFrom(if IsAbsolute(s) then [RootDir] else [], Comps(segs, true));
  }

  /** A non-empty path string always has at least one component. */
  lemma NonEmptyParse(s: string)
    requires s != ""
    ensures Parse(s) != []
  {
    if !IsAbsolute(s) {
      var segs := Split(s);
      assert segs[0] != "" by {
        if |s| == 1 {
        } else {
          assert segs[0] == [s[0]] + Split(s[1..])[0];
        }
      }
      assert Comps(segs, true)[..|SegmentComponents(segs[0], true)|] == SegmentComponents(segs[0], true);
    }
  }

  /** A valid name parses to the single component that names it. */
  lemma ParseName(n: string)
    requires ValidName(n)
    ensures Parse(n) == [Normal(n)]
  {
    SplitSingle(n);
    assert n[0] != Sep;
    assert Comps([n], true) == SegmentComponents(n, true) + Comps([], false);
  }

  // ---------------------------------------------------------------------
  // join, starts_with, parent, file_name
  // ---------------------------------------------------------------------

  /**
   * `PathBuf::join` on Unix: an absolute `p` replaces `base`; otherwise
   * `p` is appended, with a separator unless `base` is empty or already
   * ends with one.
   */
  function JoinStr(base: string, p: string): string
  {
    if IsAbsolute(p) then p
    else if base == "" then p
    else if base[|base| - 1] == Sep then base + p
    else base + [Sep] + p
  }

  /** A leading `.` is not a component once it is no longer at the front. */
  function DropCurDir(p: Path): Path
  {
    if |p| > 0 && p[0] == CurDir then p[1..] else p
  }

  /** `join` seen through `components`. */
  function Join(base: Path, p: Path): (r: Path)
    ensures IsAbsolutePath(p) ==> r == p
    ensures !IsAbsolutePath(p) ==> |base| <= |r| && r[..|base|] == base
  {
    if IsAbsolutePath(p) then p
    else if base == [] then p
    else base + DropCurDir(p)
  }

  lemma {:induction false} CompsNotAtStart(segs: seq<string>)
    requires |segs| >= 1
    ensures Comps(segs, false) == DropCurDir(Comps(segs, true))
  {
    var rest := Comps(segs[1..], false);
    assert Comps(segs, false) == SegmentComponents(segs[0], false) + rest;
    assert Comps(segs, true) == SegmentComponents(segs[0], true) + rest;
    if segs[0] == "." {
      assert Comps(segs, true) == [CurDir] + rest;
    } else {
      assert SegmentComponents(segs[0], true) == SegmentComponents(segs[0], false);
      CompsShape(segs[1..], false);
      var c := Comps(segs, true);
      if |c| > 0 && c[0] == CurDir {
        assert false;
      }
    }
  }

  /** The segment components of two strings glued at a separator. */
  lemma CompsAppendSep(x: string, y: string)
    ensures Comps(Split(x + [Sep] + y), true) == Comps(Split(x), true) + DropCurDir(Comps(Split(y), true))
  {
    SplitAppend(x, y);
    CompsAppend(Split(x), Split(y), true);
    CompsNotAtStart(Split(y));
  }

  /** A string glued at a separator is absolute when its left part is or is empty. */
  lemma AbsoluteGlued(x: string, y: string)
    ensures IsAbsolute(x + [Sep] + y) <==> IsAbsolute(x) || x == ""
  {
    if x != "" {
      assert (x + [Sep] + y)[0] == x[0];
    }
  }

  /** The components of a string glued at a separator, from the segments of its parts. */
  lemma ParseGlued(x: string, y: string)
    ensures Parse(x + [Sep] + y) ==
      (if IsAbsolute(x) || x == "" then [RootDir] else []) + (Comps(Split(x), true) + DropCurDir(Comps(Split(y), true)))
  {
    AbsoluteGlued(x, y);
    CompsAppendSep(x, y);
  }

  /** A relative path's components are its segment components. */
  lemma ParseRelative(y: string)
    requires !IsAbsolute(y)
    ensures DropCurDir(Parse(y)) == DropCurDir(Comps(Split(y), true))
  {
  }

  /** A non-empty path's components, with more components appended. */
  lemma ParseThen(x: string, more: Path)
    requires x != ""
    ensures Parse(x) + more == (if IsAbsolute(x) then [RootDir] else []) + (Comps(Split(x), true) + more)
  {
  }

  /** The empty string contributes no segment components. */
  lemma CompsOfEmpty()
    ensures Comps(Split(""), true) == []
  {
    assert Split("") == [""];
  }

  /** Components of a string glued at a separator onto a relative one. */
  lemma ParseAppendSep(x: string, y: string)
    requires !IsAbsolute(y)
    ensures Parse(x + [Sep] + y) == (if x == "" then [RootDir] else Parse(x)) + DropCurDir(Parse(y))
  {
    ParseGlued(x, y);
    ParseRelative(y);
    if x == "" {
      CompsOfEmpty();
    } else {
      ParseThen(x, DropCurDir(Comps(Split(y), true)));
    }
  }

  /**
   * Joining strings and then taking components is the same as joining the
   * component sequences: the string form and the component form of `join`
   * agree on every input.
   */
  lemma {:induction false} ParseJoin(base: string, p: string)
    ensures Parse(JoinStr(base, p)) == Join(Parse(base), Parse(p))
  {
    if IsAbsolute(p) {
    } else if base == "" {
      assert Parse(base) == [];
    } else {
      NonEmptyParse(base);
      if base[|base| - 1] == Sep {
        ParseTrailingSep(base, p);
      } else {
        ParseAppendSep(base, p);
      }
    }
  }

  /** A base ending in a separator takes a relative path without a second one. */
  lemma ParseTrailingSep(base: string, p: string)
    requires !IsAbsolute(p) && base != "" && base[|base| - 1] == Sep
    ensures Parse(base + p) == Parse(base) + DropCurDir(Parse(p))
  {
    var b' := base[..|base| - 1];
    TrailingSepGlued(base, p);
    ParseAppendSep(b', "");
    ParseAppendSep(b', p);
    EmptyParse();
    var front: Path := if b' == "" then [RootDir] else Parse(b');
    assert DropCurDir(Parse("")) == [];
    assert Parse(base) == front + [];
    assert Parse(base) == front;
  }

  /** A base ending in a separator, seen as its front glued at that separator. */
  lemma TrailingSepGlued(base: string, p: string)
    requires base != "" && base[|base| - 1] == Sep
    ensures base == base[..|base| - 1] + [Sep] + ""
    ensures base + p == base[..|base| - 1] + [Sep] + p
  {
    assert base == base[..|base| - 1] + [Sep];
  }

  /** The empty path has no components. */
  lemma EmptyParse()
    ensures Parse("") == []
  {
    CompsOfEmpty();
  }

  /**
   * The segments a base puts in front of a relative path joined onto it:
   * its own, less the empty one a trailing separator leaves.
   */
  function JoinFront(base: string): seq<string>
    requires base != ""
  {
    if base[|base| - 1] == Sep then Split(base[..|base| - 1]) else Split(base)
  }

  /** The segments of a joined relative path: the base's front, then the path's own. */
  lemma SplitJoin(base: string, p: string)
    requires base != "" && !IsAbsolute(p)
    ensures Split(JoinStr(base, p)) == JoinFront(base) + Split(p)
    ensures Split(base) == JoinFront(base) + (if base[|base| - 1] == Sep then [""] else [])
    ensures IsAbsolute(JoinStr(base, p)) == IsAbsolute(base)
  {
    if base[|base| - 1] == Sep {
      var b' := base[..|base| - 1];
      TrailingSepGlued(base, p);
      SplitAppend(b', "");
      SplitAppend(b', p);
      assert JoinStr(base, p)[0] == base[0];
    } else {
      assert JoinStr(base, p) == base + [Sep] + p;
      SplitAppend(base, p);
      assert Split(base) + [] == Split(base);
      assert JoinStr(base, p)[0] == base[0];
    }
  }

  /** `Path::starts_with`: `base`'s components are a prefix of `p`'s. */
  predicate StartsWith(p: Path, base: Path)
  {
    IsPrefix(base, p)
  }

  /** `Path::parent` is `Some` exactly when the last component is not the root. */
  predicate HasParent(p: Path)
  {
    |p| > 0 && p[|p| - 1] != RootDir
  }

  /** `Path::file_name`: the last component when it is a `Normal` name. */
  function FileName(p: Path): (r: Option<string>)
    ensures r.Some? <==> |p| > 0 && p[|p| - 1].Normal?
    ensures r.Some? ==> r.value == p[|p| - 1].name
  {
    if |p| > 0 && p[|p| - 1].Normal? then Some(p[|p| - 1].name) else None
  }

  /**
   * Joining a relative path keeps the base as a component prefix, so a
   * relative join never leaves `starts_with(base)`.
   */
  lemma JoinRelativeStartsWith(base: string, p: string)
    requires !IsAbsolute(p)
    ensures StartsWith(Parse(JoinStr(base, p)), Parse(base))
  {
    ParseJoin(base, p);
  }

  /** Joining an absolute path replaces the base outright. */
  lemma JoinAbsolute(base: string, p: string)
    requires IsAbsolute(p)
    ensures JoinStr(base, p) == p
  {
  }

  /** The file name of a directory joined with an entry's name is that name. */
  lemma JoinNameFileName(dir: string, n: string)
    requires ValidName(n)
    ensures FileName(Parse(JoinStr(dir, n))) == Some(n)
  {
    ParseName(n);
    ParseJoin(dir, n);
    assert !IsAbsolute(n) by { assert n[0] != Sep; }
  }
}

=== FILE: sequences.dfy ===
/** Relations on sequences shared by paths, locations and page text. */
module Sequences {

  /** `prefix` is an initial segment of `s`. */
  predicate IsPrefix<T(==)>(prefix: seq<T>, s: seq<T>)
  {
    |prefix| <= |s| && s[..|prefix|] == prefix
  }
}

=== FILE: sorting.dfy ===
/**
 * Sorting the listing's entries. Rust's `sort_by` is a stable merge sort;
 * because the comparator answers `Equal` only for identical entries, every
 * correct sort yields the same sequence (`SortedUnique`), so insertion sort
 * stands in for it here.
 */
module Sorting {
  import opened Entries

  /** Adding `x` in front of a sorted sequence whose elements all follow it keeps it sorted. */
  lemma ConsSorted(x: Entry, t: seq<Entry>)
    requires Sorted(t)
    requires forall y :: y in multiset(t) ==> Le(x, y)
    ensures Sorted([x] + t)
  {
    var s := [x] + t;
    forall i, j | 0 <= i < j < |s| ensures Le(s[i], s[j]) {
      assert s[j] == t[j - 1];
      assert t[j - 1] in multiset(t);
      if i > 0 {
        assert s[i] == t[i - 1];
      }
    }
  }

  /** An entry that precedes the head of a sorted sequence can go in front of it. */
  lemma InsertInFront(e: Entry, s: seq<Entry>)
    requires Sorted(s) && |s| > 0 && Le(e, s[0])
    ensures Sorted([e] + s)
  {
    forall y | y in multiset(s) ensures Le(e, y) {
      var k :| 0 <= k < |s| && s[k] == y;
      if k > 0 { LeTransitive(e, s[0], y); }
    }
    ConsSorted(e, s);
  }

  /** An entry that does not precede the head goes somewhere in the tail. */
  lemma InsertBehind(e: Entry, s: seq<Entry>, t: seq<Entry>)
    requires Sorted(s) && |s| > 0 && !Le(e, s[0])
    requires Sorted(t) && multiset(t) == multiset(s[1..]) + multiset{e}
    ensures Sorted([s[0]] + t)
  {
    forall y | y in multiset(t) ensures Le(s[0], y) {
      if y == e {
        LeTotal(e, s[0]);
      } else {
        assert y in multiset(s[1..]);
        var k :| 0 <= k < |s[1..]| && s[1..][k] == y;
        assert s[k + 1] == y;
      }
    }
    ConsSorted(s[0], t);
  }

  /** The tail of a sorted sequence is sorted. */
  lemma TailSorted(s: seq<Entry>)
    requires Sorted(s) && |s| > 0
    ensures Sorted(s[1..])
  {
    forall i, j | 0 <= i < j < |s| - 1 ensures Le(s[1..][i], s[1..][j]) {
      assert s[1..][i] == s[i + 1] && s[1..][j] == s[j + 1];
    }
  }

  /** Inserts `e` into a sorted sequence at its place. */
  function Insert(e: Entry, s: seq<Entry>): (r: seq<Entry>)
    requires Sorted(s)
    ensures multiset(r) == multiset(s) + multiset{e}
    ensures Sorted(r)
    decreases |s|
  {
    if |s| == 0 then [e]
    else if Le(e, s[0]) then
      InsertInFront(e, s);
      [e] + s
    else
      TailSorted(s);
      var t := Insert(e, s[1..]);
      InsertBehind(e, s, t);
      assert s == [s[0]] + s[1..];
      [s[0]] + t
  }

  /** The listing's entries in the comparator's order. */
  function SortEntries(s: seq<Entry>): (r: seq<Entry>)
    ensures multiset(r) == multiset(s)
    ensures Sorted(r)
    decreases |s|
  {
    if |s| == 0 then []
    else
      assert s == [s[0]] + s[1..];
      Insert(s[0], SortEntries(s[1..]))
  }

  /** The first element of a sorted sequence precedes every element. */
  lemma HeadIsLeast(s: seq<Entry>, y: Entry)
    requires Sorted(s) && |s| > 0 && y in multiset(s)
    ensures Le(s[0], y)
  {
    var k :| 0 <= k < |s| && s[k] == y;
    if k == 0 {
      CompareEqual(y, y);
    }
  }

  /**
   * A sorted permutation is unique: any two sorted arrangements of the
   * same entries are the same sequence. So the listing's order does not
   * depend on the order the directory was enumerated in, nor on the sort
   * algorithm.
   */
  lemma {:induction false} SortedUnique(a: seq<Entry>, b: seq<Entry>)
    requires Sorted(a) && Sorted(b)
    requires multiset(a) == multiset(b)
    ensures a == b
    decreases |a|
  {
    assert |b| == |multiset(b)| == |multiset(a)| == |a|;
    if |a| > 0 {
      SameHead(a, b);
      DropHead(a);
      DropHead(b);
      SortedUnique(a[1..], b[1..]);
      assert a == [a[0]] + a[1..];
      assert b == [b[0]] + b[1..];
    }
  }

  /** Two sorted arrangements of the same non-empty entries start alike. */
  lemma SameHead(a: seq<Entry>, b: seq<Entry>)
    requires Sorted(a) && Sorted(b) && |a| > 0
    requires multiset(a) == multiset(b)
    ensures |b| > 0 && a[0] == b[0]
  {
    assert a[0] in multiset(b);
    assert |b| > 0;
    assert b[0] in multiset(a);
    HeadIsLeast(a, b[0]);
    HeadIsLeast(b, a[0]);
    LeAntisymmetric(a[0], b[0]);
  }

  /** Dropping the head of a sorted sequence keeps it sorted and removes one copy. */
  lemma DropHead(a: seq<Entry>)
    requires Sorted(a) && |a| > 0
    ensures Sorted(a[1..])
    ensures multiset(a[1..]) == multiset(a) - multiset{a[0]}
  {
    assert a == [a[0]] + a[1..];
  }

  /** Sorting is the same whatever order the entries arrive in. */
  lemma SortIgnoresArrivalOrder(s: seq<Entry>, t: seq<Entry>)
    requires multiset(s) == multiset(t)
    ensures SortEntries(s) == SortEntries(t)
  {
    SortedUnique(SortEntries(s), SortEntries(t));
  }
}

=== FILE: wrappers.dfy ===
/** The optional value used throughout the model, standing for Rust's `Option`. */
module Wrappers {

  datatype Option<+T> = None | Some(value: T) {

    /** The carried value, or `default` when there is none (Rust's `unwrap_or`). */
    function GetOr(default: T): T
    {
      match this
      case Some(v) => v
      case None => default
    }
  }
}
